=== FILE: README.md ===
# H2O offline planning and weight prefetching, modelled in Dafny

H2O runs a large language model whose weights do not all fit in memory. It
has two halves, and this project models the core of each.

The offline planner (Python) reads a profiling log. `parse_log` extracts the
IO speed, the layer sizes and the per-layer compute and release times. From
these, `BanditEnv` works out how many layers fit in the memory limit
(`layer_max`) and lists every action `(k, w)`: keep `k` layers resident and
stream the rest through a window of `w` layers. `evaluate` simulates the
load/compute pipeline of an action and scores it with its negated completion
time. The UCB1 loop in `main` runs 500 episodes and keeps the best action,
breaking ties towards larger `k + w` and then larger `k`.

The weight prefetcher (C++, in `ggml-cpu.cpp`) does three jobs:

- it names the layer each compute node reads (`get_layer_name`);
- it builds a per-layer status table and a list of layers sorted by `cmp`
  (`create_prefetch_ctx`);
- once `k` is known, it marks layers `k` and above as dynamic and maps in the
  resident ones (`prefetch_resident_layer_weights`).

Weight fragments are widened to whole pages before they are mapped in, and
meant to be shrunk to whole pages before they are paged out. Offsets are
`size_t`, so the model takes every sum and difference modulo 2^64. A fragment
that lies within one page and does not start on its boundary (no page boundary
in `[start, end]`) is paged out with a wrapped length (see Findings).

Modules:

- `Common`: shared helpers.
- `Planner`: `BanditEnv` and `evaluate`.
- `Bandit`: the UCB loop.
- `LogPatterns`: the four regular expressions and `re.search`.
- `LogParser`: `parse_log`.
- `LayerNames`: `get_layer_name`.
- `LayerOrder`: `atoi`, `getRank`, `cmp` and the sort.
- `PageAlign`: page rounding.
- `PrefetchState`: `prefetch_ctx` and the resident/dynamic split.

## Model

| member | source | states |
|---|---|---|
| Planner.LoadTimes | offline_planning/offline_planning.py:25 | one load time per layer, with `t_load[i] * io_speed == layer_sizes[i] * 1000` |
| Planner.LoadTimesOrdered | offline_planning/offline_planning.py:25 | with a positive speed, load times are non-negative and ordered like the layer sizes |
| Planner.FitCount | offline_planning/offline_planning.py:35-42 | the number of leading layers admitted one by one while the running total stays within the memory limit, at most the number of layers |
| Planner.ComputeLayerMax | offline_planning/offline_planning.py:35-42 | the greedy loop returns `FitCount`, at most the number of layers |
| Planner.FitCountIsGreedyPrefix | offline_planning/offline_planning.py:35-42 | every prefix up to `layer_max` fits the limit; when it stops early, the next prefix does not |
| Planner.LayerMaxIsLongestFittingPrefix | offline_planning/offline_planning.py:35-42 | with non-negative sizes, no longer prefix fits: `layer_max` is the longest fitting prefix |
| Planner.FitCountStopsAtFirstOverflow | offline_planning/offline_planning.py:37-42 | the loop breaks at the first layer that does not fit; later layers do not matter |
| Planner.AllActions | offline_planning/offline_planning.py:46-48 | the comprehension `[(k, w) for k in range(layer_max + 1) for w in range(1, layer_max - k + 1)]` |
| Planner.AllActionsMembership | offline_planning/offline_planning.py:46-48 | `(k, w)` is an action exactly when `k >= 0`, `w >= 1` and `k + w <= layer_max` |
| Planner.AllActionsOrdered | offline_planning/offline_planning.py:46-48 | actions are listed by `k`, then `w`, without repeats |
| Planner.ActionsFromCount | offline_planning/offline_planning.py:46-48 | there are `(layer_max + 1) * layer_max / 2` actions |
| Planner.NewEnv | offline_planning/offline_planning.py:12-48 | the constructor stores the profile and gives an environment whose derived fields are consistent |
| Planner.LoadFinish | offline_planning/offline_planning.py:61-67 | `L[j]`: the previous load (none for `j == 0`), and beyond the window also the end of the release `w` layers back, plus this layer's load time |
| Planner.ComputeFinish | offline_planning/offline_planning.py:56-70 | `C[j]`: after this layer's load and the previous compute (the resident prefix's total compute for `j == 0`), plus this layer's compute time |
| Planner.Evaluation | offline_planning/offline_planning.py:51-72 | `evaluate(k, w)`: `-1e6` for an infeasible action, otherwise `-C[-1]` |
| Planner.LoadFinishStep | offline_planning/offline_planning.py:61-67 | a load finishes after the previous load; beyond the window, also after the release `w` layers back |
| Planner.ComputeFinishStep | offline_planning/offline_planning.py:69-70 | a compute starts after its own load and the previous compute (the resident prefix for the first) |
| Planner.Evaluate | offline_planning/offline_planning.py:51-72 | `-1e6` outside the feasible region, otherwise minus the finish time of the last compute |
| Planner.FeasibleTailNonEmpty | offline_planning/offline_planning.py:53-56 | a feasible action leaves at least `w >= 1` streamed layers, so `C[-1]` exists |
| Planner.StepBounds | offline_planning/offline_planning.py:61-70 | each finish time is at least its predecessor plus its own cost |
| Planner.ComputeFinishMonotone | offline_planning/offline_planning.py:61-70 | compute finish times never decrease along the pipeline |
| Planner.LoadFinishMonotone | offline_planning/offline_planning.py:61-70 | load finish times never decrease along the pipeline |
| Planner.ComputeFinishLowerBound | offline_planning/offline_planning.py:56-70 | a compute finishes no earlier than the resident prefix plus all streamed computes so far |
| Planner.LoadFinishLowerBound | offline_planning/offline_planning.py:61-70 | a load finishes no earlier than the sum of the loads so far |
| Planner.CompletionLowerBound | offline_planning/offline_planning.py:51-72 | completion is at least the total compute time and the total streamed load time |
| Planner.WiderWindowNoSlower | offline_planning/offline_planning.py:61-70 | for any profile with non-negative costs, a wider window never delays a load or a compute |
| Planner.WiderWindowNoWorse | offline_planning/offline_planning.py:51-72 | for any profile with non-negative costs and a fixed `k`, widening a feasible window never lowers the reward |
| Bandit.UcbScore | offline_planning/offline_planning.py:107-112 | `inf` for a never-pulled action, otherwise the mean reward plus `c` times the bonus |
| Bandit.UcbScores | offline_planning/offline_planning.py:105-112 | one score per action; infinite exactly for never-pulled actions |
| Bandit.FirstIndexOfMax | offline_planning/offline_planning.py:114 | `ucb_scores.index(max(ucb_scores))`: a maximal score, and the first one |
| Bandit.SelectsFirstUnpulled | offline_planning/offline_planning.py:106-114 | the first infinite score is the one selected |
| Bandit.SelectAction | offline_planning/offline_planning.py:105-114 | the selected action has a maximal score and is the first never-pulled action when one exists |
| Bandit.Run | offline_planning/offline_planning.py:121-129 | the incumbent after a sequence of observations, starting from none |
| Bandit.Improve | offline_planning/offline_planning.py:121-129 | the incumbent's reward never drops, and it becomes either the old one or the new action |
| Bandit.ImproveKeepsBetter | offline_planning/offline_planning.py:121-129 | a worse reward leaves the incumbent unchanged |
| Bandit.RunIsBestObservation | offline_planning/offline_planning.py:101-129 | after any episodes, the incumbent is an observed action with the largest reward, and no equal-reward action beats it on the `(k + w, k)` tie-break |
| Bandit.TotalIncrement | offline_planning/offline_planning.py:118 | one pull adds one to the total count |
| Bandit.TotalZeros | offline_planning/offline_planning.py:97 | the counts start at zero in total |
| Bandit.AccumulatedIsProduct | offline_planning/offline_planning.py:118-119 | adding the same reward `n` times gives `n * reward` |
| Bandit.AccumulatedAreProducts | offline_planning/offline_planning.py:118-119 | each cumulative reward is the pull count times the action's reward |
| Bandit.HistoryStep | offline_planning/offline_planning.py:115-116 | an episode appends the pulled action and its reward to the history |
| Bandit.BookkeptStep | offline_planning/offline_planning.py:118-119 | an episode keeps counts and cumulative rewards in step with the pulls |
| Bandit.ExploredStep | offline_planning/offline_planning.py:106-114 | the first episodes pull the actions in list order |
| Bandit.EpisodeStep | offline_planning/offline_planning.py:105-129 | one episode preserves the search invariant |
| Bandit.Episode | offline_planning/offline_planning.py:105-129 | one episode pulls an action of maximal UCB1 score, counts that pull once more, and preserves the search invariant |
| Bandit.SearchStart | offline_planning/offline_planning.py:97-102 | the initial counts, rewards and incumbent satisfy the search invariant |
| Bandit.SearchEnd | offline_planning/offline_planning.py:104-129 | after 500 episodes, the invariant yields the search outcome |
| Bandit.RunEpisodes | offline_planning/offline_planning.py:97-129 | after 500 episodes from zeroed counters, the search invariant holds with 500 pulls |
| Bandit.SearchBest | offline_planning/offline_planning.py:118-129 | the incumbent is an action of the list with its own reward, no pulled action has a larger reward, and each cumulative reward is count times reward |
| Bandit.Search | offline_planning/offline_planning.py:93-129 | the counts total 500; `best_action` is a listed action whose reward is at least that of every action pulled; each `action_rewards[i]` is `action_counts[i]` times the action's reward |
| Bandit.SearchFindsOptimum | offline_planning/offline_planning.py:104-129 | with at most 500 actions, every action is tried, so the result is an optimal action, preferred on ties |
| LogPatterns.Span | offline_planning/parse_offline_planning_log.py:19 | `\d+` / `\s*` take the longest run of the class |
| LogPatterns.SpanExact | offline_planning/parse_offline_planning_log.py:19 | a run followed by a character outside the class is the span |
| LogPatterns.TokenMatchSound | offline_planning/parse_offline_planning_log.py:19 | what one token matches is derived by that token |
| LogPatterns.TokenMatchComplete | offline_planning/parse_offline_planning_log.py:19 | a derivation that ends the run is what the token matches |
| LogPatterns.MatchPrefix | offline_planning/parse_offline_planning_log.py:19 | the greedy match of a pattern at the start of a string, with its length and groups; its length never exceeds the string |
| LogPatterns.MatchPrefixGroups | offline_planning/parse_offline_planning_log.py:19-21 | a match yields one value per capture group |
| LogPatterns.MatchPrefixSound | offline_planning/parse_offline_planning_log.py:19 | the greedy matcher returns only derivations of the pattern |
| LogPatterns.MatchPrefixComplete | offline_planning/parse_offline_planning_log.py:19 | for well-formed patterns, every derivation is the one the greedy matcher returns |
| LogPatterns.Search | offline_planning/parse_offline_planning_log.py:19 | `re.search(pattern, line)`: the first position at which the pattern matches, with the match's length and groups |
| LogPatterns.SearchFromFirst | offline_planning/parse_offline_planning_log.py:19 | no match starts before the position the search returns |
| LogPatterns.SearchIsLeftmost | offline_planning/parse_offline_planning_log.py:19 | `re.search`: no match iff none at any position; otherwise the leftmost match, which is unique there |
| LogPatterns.PatternsWellFormed | offline_planning/parse_offline_planning_log.py:19-35 | all four log patterns are well formed |
| LogParser.Captured | offline_planning/parse_offline_planning_log.py:19-21 | a matching line yields as many values as the pattern has groups |
| LogParser.PatternGroups | offline_planning/parse_offline_planning_log.py:19-38 | speed and size patterns have one group, compute and release patterns two |
| LogParser.Samples | offline_planning/parse_offline_planning_log.py:17-26 | `io_speeds` / `layer_sizes`: one value per matching line, in line order, at most one per line |
| LogParser.Timings | offline_planning/parse_offline_planning_log.py:28-38 | `compute_times` / `release_times`: `index -> time`, one assignment per matching line |
| LogParser.SamplesStep | offline_planning/parse_offline_planning_log.py:17-26 | each line appends its sample, if it has one |
| LogParser.TimingsStep | offline_planning/parse_offline_planning_log.py:28-38 | each line assigns its index's time, if it has one |
| LogParser.SamplesAppend | offline_planning/parse_offline_planning_log.py:17-26 | the samples of two logs concatenate |
| LogParser.SamplesFromLines | offline_planning/parse_offline_planning_log.py:17-26 | every sample comes from some line; all lines matching gives one per line; none gives none |
| LogParser.TimingsLastWins | offline_planning/parse_offline_planning_log.py:29-38 | a repeated index keeps the time of its last line |
| LogParser.TimingsKeysReported | offline_planning/parse_offline_planning_log.py:29-38 | every index in the dictionary was reported by some line |
| LogParser.Least | offline_planning/parse_offline_planning_log.py:44 | the smallest key of a non-empty set |
| LogParser.SortedKeys | offline_planning/parse_offline_planning_log.py:44-45 | `sorted(keys)`: strictly increasing keys of the set |
| LogParser.SortedKeysComplete | offline_planning/parse_offline_planning_log.py:44-45 | every key appears in `sorted(keys)` |
| LogParser.SortedKeysCount | offline_planning/parse_offline_planning_log.py:44-45 | `sorted(keys)` has one entry per key |
| LogParser.SortedKeysRank | offline_planning/parse_offline_planning_log.py:44-45 | the key at position `i` has exactly `i` smaller keys |
| LogParser.InKeyOrder | offline_planning/parse_offline_planning_log.py:44-45 | one time per index |
| LogParser.InKeyOrderRanks | offline_planning/parse_offline_planning_log.py:44-45 | the time of an index sits at its rank among the indices |
| LogParser.RoundHalfEven | offline_planning/parse_offline_planning_log.py:41 | Python's `round(num / den)`: the nearest integer, halves to the even one |
| LogParser.MeanSpeed | offline_planning/parse_offline_planning_log.py:41 | `io_speed`: the rounded mean of the samples, 0 when there are none |
| LogParser.RoundHalfEvenNearest | offline_planning/parse_offline_planning_log.py:41 | `round(num / den)` is a nearest integer, and the even one on a tie |
| LogParser.RoundHalfEvenUnique | offline_planning/parse_offline_planning_log.py:41 | any nearest integer that is even on ties equals `round(num / den)` |
| LogParser.ParseLog | offline_planning/parse_offline_planning_log.py:10-52 | the profile is the rounded mean speed, the sizes in log order, and the compute and release times in index order |
| LayerNames.FindChar | ggml/src/ggml-cpu/ggml-cpu.cpp:270 | `find(c, from)`: the first position at or after `from` holding `c` |
| LayerNames.FindText | ggml/src/ggml-cpu/ggml-cpu.cpp:271 | `find(sub, from)`: the first position at or after `from` where `sub` occurs |
| LayerNames.FoundAtStart | ggml/src/ggml-cpu/ggml-cpu.cpp:271 | `find("blk") == 0` iff the name starts with `blk` |
| LayerNames.SourceLayer | ggml/src/ggml-cpu/ggml-cpu.cpp:264-288 | a source that names a layer names a non-empty one |
| LayerNames.GetLayerName | ggml/src/ggml-cpu/ggml-cpu.cpp:260-291 | empty iff no source names a layer; otherwise the layer named by the first source that names one |
| LayerNames.BlockLayer | ggml/src/ggml-cpu/ggml-cpu.cpp:270-276 | a `blk` name with two dots gives its prefix before the second dot, which holds one dot |
| LayerNames.OneDotBlockSkipped | ggml/src/ggml-cpu/ggml-cpu.cpp:270-276 | a `blk` name with one dot is skipped without the other tests |
| LayerNames.OutputNormFirst | ggml/src/ggml-cpu/ggml-cpu.cpp:277-282 | names holding `output_norm` never give `output_weight` |
| LayerOrder.Atoi | ggml/src/ggml-cpu/ggml-cpu.cpp:590 | C's `atoi`: leading white space, an optional sign, then the leading digits; 0 when there are none |
| LayerOrder.SpaceRun | ggml/src/ggml-cpu/ggml-cpu.cpp:590 | `atoi` skips exactly the leading white space |
| LayerOrder.DigitRun | ggml/src/ggml-cpu/ggml-cpu.cpp:590 | `atoi` reads exactly the leading digits |
| LayerOrder.DecimalValue | ggml/src/ggml-cpu/ggml-cpu.cpp:590 | the digits of a numeral have its value |
| LayerOrder.AllDigits | ggml/src/ggml-cpu/ggml-cpu.cpp:590 | the digit run of an all-digit string is all of it |
| LayerOrder.AtoiDecimal | ggml/src/ggml-cpu/ggml-cpu.cpp:590 | `atoi` of a block number's digits gives the number |
| LayerOrder.Rank | ggml/src/ggml-cpu/ggml-cpu.cpp:586-598 | `getRank`: `(0,0)` for `token_embd`, `(1, atoi(rest))` for `blk.` names, `(2,0)` for `output_norm`, `(3,0)` for `output_weight`, `(4,0)` otherwise |
| LayerOrder.RankLess | ggml/src/ggml-cpu/ggml-cpu.cpp:602-605 | the comparison of two ranks: group first, position second |
| LayerOrder.Before | ggml/src/ggml-cpu/ggml-cpu.cpp:585-606 | `cmp(a, b)`: the rank of `a` is less than the rank of `b` |
| LayerOrder.StrictWeakOrder | ggml/src/ggml-cpu/ggml-cpu.cpp:585-608 | `cmp` is irreflexive and transitive, and incomparability is equal rank, as `std::sort` needs |
| LayerOrder.RankLessOrder | ggml/src/ggml-cpu/ggml-cpu.cpp:601-605 | the rank-pair comparison is a strict total order |
| LayerOrder.RankOrder | ggml/src/ggml-cpu/ggml-cpu.cpp:586-598 | order: `token_embd`, blocks by number, `output_norm`, `output_weight`, everything else |
| LayerOrder.SinkStart | ggml/src/ggml-cpu/ggml-cpu.cpp:608 | a sorted prefix starts an insertion step |
| LayerOrder.SinkStep | ggml/src/ggml-cpu/ggml-cpu.cpp:608 | a swap with a later-ranked name keeps the rest in order |
| LayerOrder.SinkEnd | ggml/src/ggml-cpu/ggml-cpu.cpp:608 | a finished insertion extends the sorted prefix by one |
| LayerOrder.SortLayers | ggml/src/ggml-cpu/ggml-cpu.cpp:608 | `std::sort(..., cmp)` in place: the layers end sorted by `cmp` and are a permutation of the input |
| PageAlign.AlignDown | ggml/src/ggml-cpu/ggml-cpu.cpp:354 | `x & ~(page_size - 1)` in `size_t` |
| PageAlign.AlignUp | ggml/src/ggml-cpu/ggml-cpu.cpp:355 | `(x + page_size - 1) & ~(page_size - 1)` in `size_t` |
| PageAlign.PrefetchRange | ggml/src/ggml-cpu/ggml-cpu.cpp:402-406 | the offset and `size_t` length `one_thread_prefetch_weights` maps for a fragment |
| PageAlign.ClearLow | ggml/src/ggml-cpu/ggml-cpu.cpp:354 | and-ing an `n`-bit value with the mask of bits `e..n-1` clears exactly its low `e` bits |
| PageAlign.AlignDownRounds | ggml/src/ggml-cpu/ggml-cpu.cpp:354 | `x & ~(page_size - 1)` is `x` rounded down to a page boundary, within one page below `x` |
| PageAlign.AlignUpRounds | ggml/src/ggml-cpu/ggml-cpu.cpp:355 | `(x + page_size - 1) & ~(page_size - 1)` is `x` rounded up to a page boundary, less than a page above |
| PageAlign.PrefetchCovers | ggml/src/ggml-cpu/ggml-cpu.cpp:402-406 | the mapped range is page aligned and covers the fragment, overshooting by less than a page at each end |
| PageAlign.PrefetchWeights | ggml/src/ggml-cpu/ggml-cpu.cpp:345-386 | with one thread, exactly one request: the widened range of the fragment |
| PageAlign.RoundDownRounds | ggml/src/ggml-cpu/ggml-cpu.cpp:303 | `x / p * p` is a multiple of `p`, within one `p` below `x` |
| PageAlign.RoundUpRounds | ggml/src/ggml-cpu/ggml-cpu.cpp:302 | `(x + p - 1) / p * p` is a multiple of `p`, less than `p` above `x` |
| PageAlign.ReleaseRange | ggml/src/ggml-cpu/ggml-cpu.cpp:300-304 | as written: the offset and `size_t` length `de_prefetch_weights` passes to `posix_madvise` for a fragment |
| PageAlign.ReleaseInward | ggml/src/ggml-cpu/ggml-cpu.cpp:302-304 | the release starts on the first page boundary in the fragment, and ends on the last when that one is not before the start |
| PageAlign.ReleaseUnderflow | ggml/src/ggml-cpu/ggml-cpu.cpp:302-304 | a fragment with no page boundary in `[start, end]` (it lies within one page and does not start on its boundary) gets length `2^64 - page_size` |
| PageAlign.ReleaseSmallFragment | ggml/src/ggml-cpu/ggml-cpu.cpp:302-304 | fragment `[100, 200)` with 4 KiB pages: offset 4096, length `2^64 - 4096` |
| PageAlign.ReleaseRangeChecked | ggml/src/ggml-cpu/ggml-cpu.cpp:302-304 | corrected: the same offset, with the length clamped to 0 when the start rounded up passes the end rounded down |
| PageAlign.ReleaseAgreesWithChecked | ggml/src/ggml-cpu/ggml-cpu.cpp:302-304 | when some page boundary lies in `[start, end]`, the release as written equals the clamped one |
| PageAlign.ReleaseCheckedWithin | ggml/src/ggml-cpu/ggml-cpu.cpp:302-304 | the clamped release is whole pages inside the fragment |
| PageAlign.ReleaseCheckedCovers | ggml/src/ggml-cpu/ggml-cpu.cpp:302-304 | the clamped release covers every whole page inside the fragment |
| PageAlign.ReleaseWithinPrefetch | ggml/src/ggml-cpu/ggml-cpu.cpp:302-304 | a fragment's clamped release lies within the range mapped in for it |
| PrefetchState.LoadsNow | ggml/src/ggml-cpu/ggml-cpu.cpp:713-718 | a layer is mapped in when its index is below `k`, `prefetch_done` is unset, and it is not the input layer (index -1) with `prefetch_input` off |
| PrefetchState.Classified | ggml/src/ggml-cpu/ggml-cpu.cpp:712-726 | the status after the call: dynamic iff its index is at least `k`, and prefetched if it was or if it is mapped in now |
| PrefetchState.ResidentRequests | ggml/src/ggml-cpu/ggml-cpu.cpp:709-727 | the mappings made over all layers in map order: each loaded layer's fragments in order |
| PrefetchState.NewStatus | ggml/src/ggml-cpu/ggml-cpu.cpp:570-580 | a new status is not dynamic or prefetched, lists the placements' fragments in order, and has the last placement's index (0 if none) |
| PrefetchState.FragmentRequests | ggml/src/ggml-cpu/ggml-cpu.cpp:719-724 | one widened request per fragment, in order |
| PrefetchState.ClassifyLayer | ggml/src/ggml-cpu/ggml-cpu.cpp:710-726 | one layer: dynamic iff index >= k; a resident layer loads all its fragments iff this is the first call and it is not a skipped input layer |
| PrefetchState.ClassifyAll | ggml/src/ggml-cpu/ggml-cpu.cpp:709-727 | the loop classifies every layer and makes the requests of the resident layers in map order |
| PrefetchState.DoneRequestsNothing | ggml/src/ggml-cpu/ggml-cpu.cpp:703-728 | once `prefetch_done` is set, a call maps nothing in |
| PrefetchState.RequestsFromResident | ggml/src/ggml-cpu/ggml-cpu.cpp:709-727 | every request is the widened range of a fragment of a layer below `k` that is loaded now |
| PrefetchState.ResidentRequested | ggml/src/ggml-cpu/ggml-cpu.cpp:709-727 | every fragment of a layer loaded now is requested |
| PrefetchState.DePrefetchWeights | ggml/src/ggml-cpu/ggml-cpu.cpp:293-313 | one page-out per fragment, in order, each the as-written `ReleaseRange`; it equals the clamped release when some page boundary lies in `[start, end]`, and has length `2^64 - page_size` when none does |
| PrefetchState.KeyLessStrict | ggml/src/ggml-cpu/ggml-cpu.cpp:562-568 | string `<` is a strict order, so a map lists each key once |
| PrefetchState.PrefetchContext.constructor | ggml/src/ggml-cpu/ggml-cpu.cpp:560-611 | `create_prefetch_ctx`: one fresh status per table entry in map order, `total_layers` the entry count, `sorted_layers` a `cmp`-sorted permutation of the names |
| PrefetchState.PrefetchContext.PrefetchResidentLayerWeights | ggml/src/ggml-cpu/ggml-cpu.cpp:697-729 | every status classified against `k`, `prefetch_done` set, other fields unchanged, requests those of the resident layers in map order |

## Left out

- Reading the configuration, the log, the command line and the shared-memory file, and all printing, are not modelled. The planner takes the profile as values and `ParseLog` takes the log's lines.
- Floating point: timings, sizes and rewards are reals, so rounding and `inf` arithmetic are not modelled. A never-pulled action's `+inf` score is a separate case of `Score`.
- The UCB bonus `c * sqrt(log(episode) / count)` is the parameter `bonus`, since `sqrt` and `log` are floating point.
- Planner.LoadTimes: requires `io_speed != 0` when there is at least one layer; the Python raises `ZeroDivisionError` there instead. An empty profile is accepted at any speed, as in the Python.
- Planner.NewEnv: requires equal-length profile lists, and a non-zero speed when there is at least one layer. Otherwise the Python raises `AssertionError` or `ZeroDivisionError`.
- Bandit.Search: requires at least one action; with none, `max([])` raises `ValueError`.
- LogPatterns.Span: `\d` and `\s` are the ASCII classes; Python's Unicode classes are not modelled.
- LogParser.Sample: yields nothing for a pattern without a capture group. The four patterns used all have one (`PatternGroups`), so this path is never taken.
- The `mmap`, `posix_madvise`, `pthread_create` and `pthread_join` calls, and the atomics, are not modelled. Each call becomes the `Range` it would be given. A failed `pthread_create` is not modelled.
- PageAlign.PrefetchWeights: `num_threads` is the constant 1 as in the source, and its ensures is stated for that constant.
- The page size is `2^shift` with `shift < 64`. `sysconf` is not modelled.
- PageAlign.PrefetchCovers: requires that rounding the end up does not pass 2^64, and the release lemmas require the same of the start. Past that point, `size_t` wrap-around makes the ranges meaningless.
- LayerOrder.Atoi: overflow past `int` is not modelled; block numbers are small.
- LayerOrder.SortLayers: `std::sort` is not stable, so which of two equal-rank names comes first is left open. The model proves only sortedness and permutation.
- The `prefetch_done` static of `prefetch_resident_layer_weights` is the field `prefetchDone` of the context, so the model resets it for each new context. In the source the flag is shared by the whole process, so a second context would map nothing in on its first call. This model does not capture that.
- Layer statuses are values in a map rather than heap objects reached through `unique_ptr`. The model does not capture aliasing between the status table and the prefetch thread.
- The prefetch thread and the other routines of `ggml-cpu.cpp` that read the status table are not part of this model. These are `judge_dynamic_layer`, the dynamic prefetch loop and the release of dynamic layers.

## Findings

| source | as written | input that shows it | evidently intended | confidence | as-written member | corrected member |
|---|---|---|---|---|---|---|
| ggml/src/ggml-cpu/ggml-cpu.cpp:302-304 | `length = aligned_end - aligned_start` in `size_t`; when no page boundary lies in `[start, end]` (the fragment lies within one page and does not start on its boundary), the start rounded up passes the end rounded down, and the length wraps to `2^64 - page_size` | fragment `[100, 200)`, page size 4096: offset 4096, length `2^64 - 4096` | page out nothing when the fragment holds no whole page (length 0) | not executed | PageAlign.ReleaseUnderflow | PageAlign.ReleaseCheckedWithin |

`PageAlign.ReleaseRange` models the code as written, and
`PrefetchState.DePrefetchWeights` issues it, as `de_prefetch_weights` does.
`PageAlign.ReleaseSmallFragment` is the concrete instance.
`PageAlign.ReleaseRangeChecked` is the corrected definition. Its properties
are:

- `PageAlign.ReleaseCheckedWithin`: whole pages inside the fragment;
- `PageAlign.ReleaseCheckedCovers`: every whole page released;
- `PageAlign.ReleaseWithinPrefetch`: inside what was mapped in.

`PageAlign.ReleaseAgreesWithChecked` shows that the two differ only on
fragments with no page boundary in `[start, end]`.

=== FILE: bandit.dfy ===
/**
 * The UCB1 episode loop of the planner's `main`: per-action pull counts and
 * cumulative rewards, selection of the first action with the largest score,
 * and the best-so-far incumbent with its (k + w, k) tie-break.
 *
 * The exploration bonus `sqrt(log(episode) / count)` is floating point; it is a
 * parameter `bonus(episode, count)` here, and a never-pulled action scores +infinity.
 */
module Bandit {
  import opened Common
  import opened Planner

  /** The episode budget: `range(1, 501)`. */
  const Episodes: nat := 500

  /** The exploration constant `c`. */
  const Exploration: real := 1.0

  /** A UCB score: +infinity for an action never pulled, otherwise a real. */
  datatype Score = Infinite | Finite(value: real)

  predicate ScoreLe(a: Score, b: Score)
  {
    b.Infinite? || (a.Finite? && a.value <= b.value)
  }

  /** The score `main` computes for one action. */
  function UcbScore(count: nat, totalReward: real, episode: nat, bonus: (nat, nat) -> real): Score
  {
    if count == 0 then Infinite
    else Finite(totalReward / count as real + Exploration * bonus(episode, count))
  }

  /** What `evaluate` returns for an action of the list. */
  function Reward(env: Env, a: Action): real
    requires Shaped(env)
  {
    Evaluation(env, a.k, a.w)
  }

  // ---------------------------------------------------------------------------
  // Selection

  /** The inner loop that builds `ucb_scores`. */
  method UcbScores(counts: seq<nat>, rewards: seq<real>, episode: nat, bonus: (nat, nat) -> real)
    returns (scores: seq<Score>)
    requires |counts| == |rewards|
    ensures |scores| == |counts|
    ensures forall i :: 0 <= i < |scores| ==> scores[i] == UcbScore(counts[i], rewards[i], episode, bonus)
    ensures forall i :: 0 <= i < |scores| ==> (scores[i].Infinite? <==> counts[i] == 0)
  {
    scores := [];
    for i := 0 to |counts|
      invariant |scores| == i
      invariant forall j :: 0 <= j < i ==> scores[j] == UcbScore(counts[j], rewards[j], episode, bonus)
    {
      if counts[i] == 0 {
        scores := scores + [Infinite];
      } else {
        var avg := rewards[i] / counts[i] as real;
        var b := Exploration * bonus(episode, counts[i]);
        scores := scores + [Finite(avg + b)];
      }
    }
  }

  /** `ucb_scores.index(max(ucb_scores))`: the first position holding the largest score. */
  method FirstIndexOfMax(scores: seq<Score>) returns (best: nat)
    requires |scores| > 0
    ensures best < |scores|
    ensures forall i :: 0 <= i < |scores| ==> ScoreLe(scores[i], scores[best])
    ensures forall i :: 0 <= i < best ==> !ScoreLe(scores[best], scores[i])
  {
    best := 0;
    for i := 1 to |scores|
      invariant best < i
      invariant forall j :: 0 <= j < i ==> ScoreLe(scores[j], scores[best])
      invariant forall j :: 0 <= j < best ==> !ScoreLe(scores[best], scores[j])
    {
      if !ScoreLe(scores[i], scores[best]) {
        best := i;
      }
    }
  }

  /** An action that was never pulled is always preferred, the first such one first. */
  lemma SelectsFirstUnpulled(scores: seq<Score>, best: nat, u: nat)
    requires best < |scores| && u < |scores| && scores[u].Infinite?
    requires forall i :: 0 <= i < |scores| ==> ScoreLe(scores[i], scores[best])
    requires forall i :: 0 <= i < best ==> !ScoreLe(scores[best], scores[i])
    requires forall i :: 0 <= i < u ==> scores[i].Finite?
    ensures best == u
  {
    assert ScoreLe(scores[u], scores[best]);
  }

  /** `u` is the first action never pulled so far. */
  predicate FirstUnpulled(counts: seq<nat>, u: nat)
  {
    u < |counts| && counts[u] == 0 && forall i :: 0 <= i < u ==> counts[i] > 0
  }

  /** One selection step: score every action and take the first with the largest score. */
  method SelectAction(counts: seq<nat>, rewards: seq<real>, episode: nat, bonus: (nat, nat) -> real)
    returns (actionIdx: nat)
    requires |counts| == |rewards| > 0
    ensures actionIdx < |counts|
    ensures forall i :: 0 <= i < |counts| ==>
              ScoreLe(UcbScore(counts[i], rewards[i], episode, bonus), UcbScore(counts[actionIdx], rewards[actionIdx], episode, bonus))
    ensures forall u :: FirstUnpulled(counts, u) ==> actionIdx == u
  {
    var scores := UcbScores(counts, rewards, episode, bonus);
    actionIdx := FirstIndexOfMax(scores);
    forall u | FirstUnpulled(counts, u)
      ensures actionIdx == u
    {
      SelectsFirstUnpulled(scores, actionIdx, u);
    }
  }

  // ---------------------------------------------------------------------------
  // The incumbent

  /** `best_action` / `best_reward`; `NoBest` is the initial `None` / `-inf`. */
  datatype Incumbent = NoBest | Best(action: Action, reward: real)

  /** The tie-break on equal rewards: larger `k + w`, then larger `k`. */
  predicate MoreAggressive(a: Action, b: Action)
  {
    a.k + a.w > b.k + b.w || (a.k + a.w == b.k + b.w && a.k > b.k)
  }

  /** The incumbent update after an episode that pulled `a` and observed `reward`. */
  function Improve(inc: Incumbent, a: Action, reward: real): (r: Incumbent)
    ensures r.Best?
    ensures inc.Best? ==> r.reward >= inc.reward
    ensures r == inc || r == Best(a, reward)
  {
    match inc
    case NoBest => Best(a, reward)
    case Best(b, bestReward) =>
      if reward > bestReward then Best(a, reward)
      else if reward == bestReward then
        if a.k + a.w > b.k + b.w then Best(a, reward)
        else if a.k + a.w == b.k + b.w && a.k > b.k then Best(a, reward)
        else inc
      else inc
  }

  /** The incumbent after a sequence of (action, reward) observations. */
  function Run(obs: seq<(Action, real)>): Incumbent
  {
    if obs == [] then NoBest else Improve(Run(obs[..|obs| - 1]), obs[|obs| - 1].0, obs[|obs| - 1].1)
  }

  /** The incumbent holds the largest reward observed, for the most aggressive action
      among those that reached it, and that pair was actually observed. */
  lemma {:induction false} RunIsBestObservation(obs: seq<(Action, real)>)
    requires obs != []
    ensures Run(obs).Best?
    ensures exists t :: 0 <= t < |obs| && obs[t] == (Run(obs).action, Run(obs).reward)
    ensures forall t :: 0 <= t < |obs| ==> obs[t].1 <= Run(obs).reward
    ensures forall t :: 0 <= t < |obs| && obs[t].1 == Run(obs).reward ==> !MoreAggressive(obs[t].0, Run(obs).action)
  {
    var n := |obs|;
    var prefix := obs[..n - 1];
    var (a, r) := obs[n - 1];
    assert Run(obs) == Improve(Run(prefix), a, r);
    if prefix == [] {
      assert obs[0] == (a, r);
    } else {
      RunIsBestObservation(prefix);
      var t0 :| 0 <= t0 < |prefix| && prefix[t0] == (Run(prefix).action, Run(prefix).reward);
      assert obs[t0] == prefix[t0];
      assert forall t :: 0 <= t < n - 1 ==> obs[t] == prefix[t];
    }
  }

  /** A strictly lower reward never replaces the incumbent. */
  lemma ImproveKeepsBetter(inc: Incumbent, a: Action, reward: real)
    requires inc.Best? && reward < inc.reward
    ensures Improve(inc, a, reward) == inc
  {
  }

  // ---------------------------------------------------------------------------
  // The episode loop

  /** Number of times `i` occurs in `pulls`. */
  function Count(pulls: seq<nat>, i: nat): nat
  {
    if pulls == [] then 0
    else Count(pulls[..|pulls| - 1], i) + (if pulls[|pulls| - 1] == i then 1 else 0)
  }

  lemma {:induction false} TotalIncrement(counts: seq<nat>, i: nat)
    requires i < |counts|
    ensures Total(counts[i := counts[i] + 1]) == Total(counts) + 1
  {
    var n := |counts|;
    var c' := counts[i := counts[i] + 1];
    if i < n - 1 {
      assert c'[..n - 1] == counts[..n - 1][i := counts[i] + 1];
      TotalIncrement(counts[..n - 1], i);
    } else {
      assert c'[..n - 1] == counts[..n - 1];
    }
  }

  lemma TotalZeros(n: nat)
    ensures Total(seq(n, _ => 0)) == 0
  {
    if n > 0 {
      assert seq(n, _ => 0)[..n - 1] == seq(n - 1, _ => 0);
      TotalZeros(n - 1);
    }
  }

  /** `reward` added `count` times to 0.0, as `action_rewards[i] += reward` does. */
  function Accumulated(count: nat, reward: real): real
  {
    if count == 0 then 0.0 else Accumulated(count - 1, reward) + reward
  }

  lemma {:induction false} AccumulatedIsProduct(count: nat, reward: real)
    ensures Accumulated(count, reward) == count as real * reward
  {
    if count > 0 {
      AccumulatedIsProduct(count - 1, reward);
    }
  }

  /** The running sums kept by the search are count times reward for every action. */
  lemma AccumulatedAreProducts(env: Env, counts: seq<nat>, rewards: seq<real>)
    requires Shaped(env)
    requires |counts| == |rewards| == |env.allActions|
    requires forall i :: 0 <= i < |counts| ==> rewards[i] == Accumulated(counts[i], Rewards(env)[i])
    ensures forall i :: 0 <= i < |counts| ==> rewards[i] == counts[i] as real * Reward(env, env.allActions[i])
  {
    forall i | 0 <= i < |counts|
      ensures rewards[i] == counts[i] as real * Reward(env, env.allActions[i])
    {
      var v := Reward(env, env.allActions[i]);
      assert Rewards(env)[i] == v;
      AccumulatedIsProduct(counts[i], v);
    }
  }

  /** The history so far: `obs[t]` is the action pulled at episode `t + 1` with its reward. */
  ghost predicate History(actions: seq<Action>, values: seq<real>, pulls: seq<nat>, obs: seq<(Action, real)>)
  {
    && |actions| == |values| && |pulls| == |obs|
    && forall t :: 0 <= t < |pulls| ==> pulls[t] < |actions| && obs[t] == (actions[pulls[t]], values[pulls[t]])
  }

  /** `action_counts` counts the pulls of each action and `action_rewards` sums their rewards. */
  ghost predicate Bookkept(counts: seq<nat>, rewards: seq<real>, pulls: seq<nat>, values: seq<real>)
  {
    && |counts| == |rewards| == |values|
    && forall i :: 0 <= i < |counts| ==> counts[i] == Count(pulls, i) && rewards[i] == Accumulated(counts[i], values[i])
  }

  /** Until every action has been pulled once, episode `t + 1` pulled action `t`. */
  ghost predicate ExploredInOrder(counts: seq<nat>, pulls: seq<nat>)
  {
    && (forall t :: 0 <= t < |pulls| && t < |counts| ==> pulls[t] == t)
    && (|pulls| <= |counts| ==> forall i :: 0 <= i < |counts| ==> counts[i] == (if i < |pulls| then 1 else 0))
  }

  /** The reward of every action of the list, in list order. */
  ghost function Rewards(env: Env): (values: seq<real>)
    requires Shaped(env)
    ensures |values| == |env.allActions|
    ensures forall i :: 0 <= i < |values| ==> values[i] == Reward(env, env.allActions[i])
  {
    seq(|env.allActions|, i requires 0 <= i < |env.allActions| => Reward(env, env.allActions[i]))
  }

  /** What holds between episodes of the search loop. */
  ghost predicate SearchState(env: Env, counts: seq<nat>, rewards: seq<real>, best: Incumbent,
                              pulls: seq<nat>, obs: seq<(Action, real)>)
    requires Shaped(env)
  {
    var values := Rewards(env);
    && History(env.allActions, values, pulls, obs)
    && Bookkept(counts, rewards, pulls, values)
    && ExploredInOrder(counts, pulls)
    && Total(counts) == |pulls|
    && best == Run(obs)
    && (|pulls| > 0 ==> best.Best?)
  }

  /** Appending one pull keeps the history. */
  lemma HistoryStep(actions: seq<Action>, values: seq<real>, pulls: seq<nat>, obs: seq<(Action, real)>, idx: nat)
    requires History(actions, values, pulls, obs) && idx < |actions|
    ensures History(actions, values, pulls + [idx], obs + [(actions[idx], values[idx])])
  {
  }

  /** Counting one more pull of `idx` and adding its reward keeps the bookkeeping. */
  lemma BookkeptStep(counts: seq<nat>, rewards: seq<real>, pulls: seq<nat>, values: seq<real>, idx: nat)
    requires Bookkept(counts, rewards, pulls, values) && idx < |counts|
    ensures Bookkept(counts[idx := counts[idx] + 1], rewards[idx := rewards[idx] + values[idx]], pulls + [idx], values)
  {
    var pulls' := pulls + [idx];
    assert pulls'[..|pulls'| - 1] == pulls;
    forall i | 0 <= i < |counts|
      ensures Count(pulls', i) == Count(pulls, i) + (if idx == i then 1 else 0)
    {
    }
  }

  /** While some action is still unpulled, pulling the first one keeps the exploration order. */
  lemma ExploredStep(counts: seq<nat>, pulls: seq<nat>, idx: nat)
    requires ExploredInOrder(counts, pulls) && idx < |counts|
    requires |pulls| < |counts| ==> idx == |pulls|
    ensures ExploredInOrder(counts[idx := counts[idx] + 1], pulls + [idx])
  {
  }

  /** One episode's updates keep the loop state, provided that while some action is
      still unpulled the episode pulls the first such action. */
  lemma EpisodeStep(env: Env, counts: seq<nat>, rewards: seq<real>, best: Incumbent,
                    pulls: seq<nat>, obs: seq<(Action, real)>, idx: nat)
    requires Shaped(env) && SearchState(env, counts, rewards, best, pulls, obs)
    requires idx < |counts|
    requires |pulls| < |counts| ==> idx == |pulls|
    ensures var a, reward := env.allActions[idx], Reward(env, env.allActions[idx]);
            SearchState(env, counts[idx := counts[idx] + 1], rewards[idx := rewards[idx] + reward],
                        Improve(best, a, reward), pulls + [idx], obs + [(a, reward)])
  {
    var values := Rewards(env);
    var a, reward := env.allActions[idx], values[idx];
    HistoryStep(env.allActions, values, pulls, obs, idx);
    BookkeptStep(counts, rewards, pulls, values, idx);
    ExploredStep(counts, pulls, idx);
    TotalIncrement(counts, idx);
    var obs' := obs + [(a, reward)];
    assert obs'[..|obs'| - 1] == obs;
  }

  /** One episode of `main`: pull the action with the largest UCB1 score, evaluate it,
      and update the counters and the incumbent. */
  method Episode(env: Env, bonus: (nat, nat) -> real, episode: nat,
                 counts: seq<nat>, rewards: seq<real>, best: Incumbent, ghost pulls: seq<nat>, ghost obs: seq<(Action, real)>)
    returns (actionIdx: nat, counts': seq<nat>, rewards': seq<real>, best': Incumbent, ghost pulls': seq<nat>, ghost obs': seq<(Action, real)>)
    requires Shaped(env) && |env.allActions| > 0
    requires episode == |pulls| + 1
    requires SearchState(env, counts, rewards, best, pulls, obs)
    ensures SearchState(env, counts', rewards', best', pulls', obs')
    ensures actionIdx < |counts| && pulls' == pulls + [actionIdx]
    ensures forall i :: 0 <= i < |counts| ==>
              ScoreLe(UcbScore(counts[i], rewards[i], episode, bonus),
                      UcbScore(counts[actionIdx], rewards[actionIdx], episode, bonus))
    ensures counts' == counts[actionIdx := counts[actionIdx] + 1]
  {
    actionIdx := SelectAction(counts, rewards, episode, bonus);
    assert episode - 1 < |counts| ==> FirstUnpulled(counts, episode - 1);
    var a := env.allActions[actionIdx];
    var reward := Evaluate(env, a.k, a.w);
    EpisodeStep(env, counts, rewards, best, pulls, obs, actionIdx);
    counts' := counts[actionIdx := counts[actionIdx] + 1];
    rewards' := rewards[actionIdx := rewards[actionIdx] + reward];
    best' := Improve(best, a, reward);
    pulls', obs' := pulls + [actionIdx], obs + [(a, reward)];
  }

  /** Before the first episode nothing has been pulled. */
  lemma SearchStart(env: Env)
    requires Shaped(env)
    ensures SearchState(env, seq(|env.allActions|, _ => 0), seq(|env.allActions|, _ => 0.0), NoBest, [], [])
  {
    TotalZeros(|env.allActions|);
  }

  /** What the search promises about its result and its history. */
  ghost predicate SearchOutcome(env: Env, counts: seq<nat>, rewards: seq<real>, best: Incumbent, pulls: seq<nat>, obs: seq<(Action, real)>)
    requires Shaped(env)
  {
    && |pulls| == Episodes
    && |counts| == |env.allActions| && |rewards| == |env.allActions|
    && |obs| == Episodes
    && (forall t :: 0 <= t < Episodes ==>
          pulls[t] < |env.allActions| &&
          obs[t] == (env.allActions[pulls[t]], Reward(env, env.allActions[pulls[t]])))
    && Total(counts) == Episodes
    && (forall i :: 0 <= i < |counts| ==> counts[i] == Count(pulls, i))
    && (forall i :: 0 <= i < |counts| ==> rewards[i] == counts[i] as real * Reward(env, env.allActions[i]))
    && (forall t :: 0 <= t < Episodes && t < |env.allActions| ==> pulls[t] == t)
    && best == Run(obs)
    && best.Best?
  }

  /** The loop state after the last episode gives the promised outcome. */
  lemma SearchEnd(env: Env, counts: seq<nat>, rewards: seq<real>, best: Incumbent, pulls: seq<nat>, obs: seq<(Action, real)>)
    requires Shaped(env) && SearchState(env, counts, rewards, best, pulls, obs)
    requires |pulls| == Episodes
    ensures SearchOutcome(env, counts, rewards, best, pulls, obs)
  {
    AccumulatedAreProducts(env, counts, rewards);
  }

  /** The 500-episode UCB1 search of `main` over the environment's action list.
      `pulls` and `obs` are the episode-by-episode history (which action, which reward). */
  method Search(env: Env, bonus: (nat, nat) -> real)
    returns (best: Incumbent, counts: seq<nat>, rewards: seq<real>, ghost pulls: seq<nat>, ghost obs: seq<(Action, real)>)
    requires Shaped(env) && |env.allActions| > 0
    ensures SearchOutcome(env, counts, rewards, best, pulls, obs)
    ensures |counts| == |env.allActions| && |rewards| == |env.allActions| && Total(counts) == Episodes
    ensures best.Best? && best.action in env.allActions && best.reward == Reward(env, best.action)
    ensures forall i :: 0 <= i < |counts| && counts[i] > 0 ==> Reward(env, env.allActions[i]) <= best.reward
    ensures forall i :: 0 <= i < |counts| ==> rewards[i] == counts[i] as real * Reward(env, env.allActions[i])
  {
    best, counts, rewards, pulls, obs := RunEpisodes(env, bonus);
    SearchEnd(env, counts, rewards, best, pulls, obs);
    SearchBest(env, counts, rewards, best, pulls, obs);
  }

  /** The loop of `main`: 500 episodes from all-zero counters and no incumbent. */
  method RunEpisodes(env: Env, bonus: (nat, nat) -> real)
    returns (best: Incumbent, counts: seq<nat>, rewards: seq<real>, ghost pulls: seq<nat>, ghost obs: seq<(Action, real)>)
    requires Shaped(env) && |env.allActions| > 0
    ensures |pulls| == Episodes && SearchState(env, counts, rewards, best, pulls, obs)
  {
    counts := seq(|env.allActions|, _ => 0);
    rewards := seq(|env.allActions|, _ => 0.0);
    best := NoBest;
    pulls, obs := [], [];
    SearchStart(env);

    for episode := 1 to Episodes + 1
      invariant |pulls| == episode - 1
      invariant SearchState(env, counts, rewards, best, pulls, obs)
    {
      var pulled;
      pulled, counts, rewards, best, pulls, obs := Episode(env, bonus, episode, counts, rewards, best, pulls, obs);
    }
  }

  /** An action pulled at least once occurs in the pull history. */
  lemma {:induction false} CountPositive(pulls: seq<nat>, i: nat)
    requires Count(pulls, i) > 0
    ensures exists t :: 0 <= t < |pulls| && pulls[t] == i
  {
    var n := |pulls|;
    if pulls[n - 1] != i {
      CountPositive(pulls[..n - 1], i);
      var t :| 0 <= t < n - 1 && pulls[..n - 1][t] == i;
      assert pulls[t] == i;
    }
  }

  /** The search returns an action of the list with its own reward, and no action
      it pulled has a larger reward. */
  lemma SearchBest(env: Env, counts: seq<nat>, rewards: seq<real>, best: Incumbent, pulls: seq<nat>, obs: seq<(Action, real)>)
    requires Shaped(env) && SearchOutcome(env, counts, rewards, best, pulls, obs)
    ensures |counts| == |env.allActions| && |rewards| == |env.allActions| && Total(counts) == Episodes
    ensures best.Best? && best.action in env.allActions && best.reward == Reward(env, best.action)
    ensures forall i :: 0 <= i < |counts| && counts[i] > 0 ==> Reward(env, env.allActions[i]) <= best.reward
    ensures forall i :: 0 <= i < |counts| ==> rewards[i] == counts[i] as real * Reward(env, env.allActions[i])
  {
    RunIsBestObservation(obs);
    var t :| 0 <= t < |obs| && obs[t] == (best.action, best.reward);
    assert best.action == env.allActions[pulls[t]];
    forall i | 0 <= i < |counts| && counts[i] > 0
      ensures Reward(env, env.allActions[i]) <= best.reward
    {
      CountPositive(pulls, i);
      var u :| 0 <= u < |pulls| && pulls[u] == i;
      assert obs[u].1 == Reward(env, env.allActions[i]);
    }
  }

  /** When there are at most 500 actions every one of them is pulled, so the search
      returns an action with the largest reward of the whole list, and among those
      the most aggressive one. */
  lemma SearchFindsOptimum(env: Env, counts: seq<nat>, rewards: seq<real>, best: Incumbent, pulls: seq<nat>, obs: seq<(Action, real)>)
    requires Shaped(env) && 0 < |env.allActions| <= Episodes
    requires SearchOutcome(env, counts, rewards, best, pulls, obs)
    ensures best.Best? && best.action in env.allActions && best.reward == Reward(env, best.action)
    ensures forall i :: 0 <= i < |env.allActions| ==> Reward(env, env.allActions[i]) <= best.reward
    ensures forall i :: 0 <= i < |env.allActions| && Reward(env, env.allActions[i]) == best.reward ==>
              !MoreAggressive(env.allActions[i], best.action)
  {
    RunIsBestObservation(obs);
    assert best.Best?;
    var t :| 0 <= t < |obs| && obs[t] == (best.action, best.reward);
    forall i | 0 <= i < |env.allActions|
      ensures obs[i] == (env.allActions[i], Reward(env, env.allActions[i]))
    {
      assert pulls[i] == i;
    }
  }
}

=== FILE: common.dfy ===
/** Small helpers shared by the modules of the model: options, sums of natural
    and real sequences, maxima, ASCII character classes, decimal values, and two facts
    about multiplication. */
module Common {

  datatype Option<T> = None | Some(value: T)

  /** Sum of a sequence of reals (Python's `sum` over a list of floats, taken exactly). */
  function Sum(s: seq<real>): real
  {
    if s == [] then 0.0 else Sum(s[..|s| - 1]) + s[|s| - 1]
  }

  /** Sum of a sequence of naturals (Python's `sum` over a list of ints). */
  function Total(xs: seq<nat>): nat
  {
    if xs == [] then 0 else Total(xs[..|xs| - 1]) + xs[|xs| - 1]
  }

  /** Python's two-argument `max` on reals. */
  function Max(a: real, b: real): (r: real)
    ensures r >= a && r >= b && (r == a || r == b)
  {
    if a >= b then a else b
  }

  /** A decimal digit: `\d` of a regular expression restricted to ASCII, C's `isdigit`. */
  predicate IsDigit(c: char)
  {
    '0' <= c <= '9'
  }

  /** White space: `\s` restricted to ASCII, C's `isspace` in the "C" locale
      (space, tab, newline, vertical tab, form feed, carriage return). */
  predicate IsSpace(c: char)
  {
    c == ' ' || 9 <= c as int <= 13
  }

  /** The number a string of decimal digits denotes (Python's `int()`, the
      digits part of C's `atoi`). */
  function Value(s: string): nat
  {
    if s == [] then 0 else 10 * Value(s[..|s| - 1]) + (if IsDigit(s[|s| - 1]) then s[|s| - 1] as int - '0' as int else 0)
  }

  ghost predicate NonNegative(s: seq<real>)
  {
    forall i :: 0 <= i < |s| ==> s[i] >= 0.0
  }

  /** Appending one element to the summed prefix. */
  lemma SumPrefixStep(s: seq<real>, n: nat)
    requires n < |s|
    ensures Sum(s[..n + 1]) == Sum(s[..n]) + s[n]
  {
    assert s[..n + 1][..n] == s[..n];
  }

  /** Extending a slice by one element on the right. */
  lemma SumSliceStep(s: seq<real>, a: nat, b: nat)
    requires a <= b < |s|
    ensures Sum(s[a..b + 1]) == Sum(s[a..b]) + s[b]
  {
    assert s[a..b + 1][..b - a] == s[a..b];
  }

  /** Sum distributes over concatenation. */
  lemma {:induction false} SumAppend(a: seq<real>, b: seq<real>)
    ensures Sum(a + b) == Sum(a) + Sum(b)
    decreases |b|
  {
    if b == [] {
      assert a + b == a;
    } else {
      var b' := b[..|b| - 1];
      assert (a + b)[..|a + b| - 1] == a + b';
      SumAppend(a, b');
    }
  }

  /** With non-negative entries a longer prefix never has a smaller sum. */
  lemma {:induction false} SumPrefixMonotone(s: seq<real>, m: nat, n: nat)
    requires NonNegative(s)
    requires m <= n <= |s|
    ensures Sum(s[..m]) <= Sum(s[..n])
    decreases n - m
  {
    if m < n {
      SumPrefixMonotone(s, m, n - 1);
      SumPrefixStep(s, n - 1);
    }
  }

  lemma MulLe(d: nat, a: nat, b: nat)
    requires a <= b
    ensures d * a <= d * b
  {
  }

  lemma MulCancel(d: nat, a: nat, b: nat)
    requires d > 0 && d * a <= d * b
    ensures a <= b
  {
  }
}

=== FILE: layer_names.dfy ===
/** `get_layer_name`: the name of the model layer whose weights a compute-graph
    node reads, taken from the names of the node's source tensors.  A node is
    modelled by its sources: a null source is `None`, any other one `Some(name)`. */
module LayerNames {
  import opened Common

  /** `s.find(c, from)`: the first position at or after `from` that holds `c`. */
  function FindChar(s: string, c: char, from: nat): (r: Option<nat>)
    ensures r.Some? ==> from <= r.value < |s| && s[r.value] == c
    ensures forall i :: from <= i < |s| && (r.None? || i < r.value) ==> s[i] != c
    decreases |s| - from
  {
    if from >= |s| then None
    else if s[from] == c then Some(from)
    else FindChar(s, c, from + 1)
  }

  /** `sub` occurs in `s` at position `i`. */
  predicate OccursAt(s: string, sub: string, i: nat)
  {
    i + |sub| <= |s| && s[i..i + |sub|] == sub
  }

  /** `s.find(sub, from)`: the first position at or after `from` where `sub` occurs. */
  function FindText(s: string, sub: string, from: nat): (r: Option<nat>)
    ensures r.Some? ==> from <= r.value && OccursAt(s, sub, r.value)
    ensures forall i :: from <= i && (r.None? || i < r.value) ==> !OccursAt(s, sub, i)
    decreases |s| - from
  {
    if from + |sub| > |s| then None
    else if OccursAt(s, sub, from) then Some(from)
    else FindText(s, sub, from + 1)
  }

  /** `s.find(sub) != std::string::npos`. */
  predicate Contains(s: string, sub: string)
  {
    FindText(s, sub, 0).Some?
  }

  /** `s.find(prefix) == 0` holds exactly when `s` starts with `prefix`. */
  lemma FoundAtStart(s: string, prefix: string)
    ensures FindText(s, prefix, 0) == Some(0) <==> prefix <= s
  {
    if prefix <= s {
      assert OccursAt(s, prefix, 0);
    }
  }

  /** What one source contributes in `get_layer_name`'s loop: the layer name on
      which the loop breaks, or `None` when the loop goes on to the next source. */
  function SourceLayer(src: Option<string>): (r: Option<string>)
    ensures r.Some? ==> r.value != ""
  {
    match src
    case None => None
    case Some(name) =>
      var dot := FindChar(name, '.', 0);
      if FindText(name, "blk", 0) == Some(0) && dot.Some? then
        match FindChar(name, '.', dot.value + 1)
        case Some(second) => Some(name[..second])
        case None => None
      else if Contains(name, "output_norm") then Some("output_norm")
      else if Contains(name, "output") then Some("output_weight")
      else if Contains(name, "token_embd") then Some("token_embd")
      else None
  }

  /** `get_layer_name(node)`: the loop over the node's sources, which skips
      null sources and stops at the first one that names a layer. */
  method GetLayerName(srcs: seq<Option<string>>) returns (layer: string)
    ensures layer == "" <==> forall j :: 0 <= j < |srcs| ==> SourceLayer(srcs[j]).None?
    ensures layer != "" ==>
              exists j :: 0 <= j < |srcs| && SourceLayer(srcs[j]) == Some(layer)
                          && forall i :: 0 <= i < j ==> SourceLayer(srcs[i]).None?
  {
    layer := "";
    var j := 0;
    while j < |srcs|
      invariant j <= |srcs| && layer == ""
      invariant forall i :: 0 <= i < j ==> SourceLayer(srcs[i]).None?
    {
      if srcs[j].None? {
        j := j + 1;
        continue;
      }
      var name := srcs[j].value;
      var dotPos := FindChar(name, '.', 0);
      if FindText(name, "blk", 0) == Some(0) && dotPos.Some? {
        var secondDotPos := FindChar(name, '.', dotPos.value + 1);
        if secondDotPos.Some? {
          layer := name[..secondDotPos.value];
          break;
        }
      } else if Contains(name, "output_norm") {
        layer := "output_norm";
        break;
      } else if Contains(name, "output") {
        layer := "output_weight";
        break;
      } else if Contains(name, "token_embd") {
        layer := "token_embd";
        break;
      }
      j := j + 1;
    }
  }

  // ---------------------------------------------------------------------------
  // What a source name gives

  /** A string holding `c` at position `d` and nowhere else holds it once. */
  lemma {:induction false} OnlyAt(s: string, c: char, d: nat)
    requires d < |s| && s[d] == c
    requires forall i :: 0 <= i < |s| && i != d ==> s[i] != c
    ensures multiset(s)[c] == 1
    decreases |s|
  {
    var init := s[..|s| - 1];
    assert s == init + [s[|s| - 1]];
    if d == |s| - 1 {
      assert c !in init;
    } else {
      OnlyAt(init, c, d);
    }
  }

  /** A string holding `c` at two positions holds it at least twice. */
  lemma TwoAt(s: string, c: char, a: nat, b: nat)
    requires a < b < |s| && s[a] == c && s[b] == c
    ensures multiset(s)[c] >= 2
  {
    assert s == s[..b] + s[b..];
    assert s[..b][a] == c && s[b..][0] == c;
    assert c in multiset(s[..b]) && c in multiset(s[b..]);
  }

  /** A string without `c` does not hold it. */
  lemma Absent(s: string, c: char)
    requires forall i :: 0 <= i < |s| ==> s[i] != c
    ensures multiset(s)[c] == 0
  {
    assert c !in s;
  }

  /** A block weight: a name that starts with `blk` and has at least two dots
      names the layer written before its second dot, e.g. `blk.3.attn_q.weight`
      gives `blk.3`: a proper prefix of the name, followed in it by a dot, and
      holding exactly one dot itself. */
  lemma BlockLayer(name: string)
    requires "blk" <= name && multiset(name)['.'] >= 2
    ensures SourceLayer(Some(name)).Some?
    ensures var layer := SourceLayer(Some(name)).value;
            layer < name && name[|layer|] == '.' && multiset(layer)['.'] == 1
  {
    FoundAtStart(name, "blk");
    var dot := FindChar(name, '.', 0);
    if dot.None? {
      Absent(name, '.');
    } else {
      var second := FindChar(name, '.', dot.value + 1);
      if second.None? {
        OnlyAt(name, '.', dot.value);
      } else {
        var layer := name[..second.value];
        OnlyAt(layer, '.', dot.value);
      }
    }
  }

  /** A name that starts with `blk` and has exactly one dot is skipped: it is not
      looked at for `output` or `token_embd` either. */
  lemma OneDotBlockSkipped(name: string)
    requires "blk" <= name && multiset(name)['.'] == 1
    ensures SourceLayer(Some(name)) == None
  {
    FoundAtStart(name, "blk");
    var dot := FindChar(name, '.', 0);
    if dot.None? {
      Absent(name, '.');
    } else {
      var second := FindChar(name, '.', dot.value + 1);
      if second.Some? {
        TwoAt(name, '.', dot.value, second.value);
      }
    }
  }

  /** `output_norm` is looked for before `output`: a name holding `output_norm` never
      gives `output_weight`, and gives `output_norm` unless it is a block weight. */
  lemma OutputNormFirst(name: string)
    ensures SourceLayer(Some(name)) == Some("output_weight") ==> !Contains(name, "output_norm")
    ensures Contains(name, "output_norm") && !("blk" <= name && '.' in name) ==>
              SourceLayer(Some(name)) == Some("output_norm")
  {
    FoundAtStart(name, "blk");
    if FindChar(name, '.', 0).None? {
      assert '.' !in name;
    }
  }
}

=== FILE: layer_order.dfy ===
/** The order in which `create_prefetch_ctx` lists the layers: the comparator
    `cmp`, built on `getRank`, and the sort of `sorted_layers` it is used in. */
module LayerOrder {
  import opened Common

  // ---------------------------------------------------------------------------
  // `atoi`

  /** How many characters at the start of `s` are white space. */
  function SpaceRun(s: string): (n: nat)
    ensures n <= |s| && (n < |s| ==> !IsSpace(s[n]))
    ensures forall i :: 0 <= i < n ==> IsSpace(s[i])
  {
    if s != [] && IsSpace(s[0]) then 1 + SpaceRun(s[1..]) else 0
  }

  /** How many characters at the start of `s` are decimal digits. */
  function DigitRun(s: string): (n: nat)
    ensures n <= |s| && (n < |s| ==> !IsDigit(s[n]))
    ensures forall i :: 0 <= i < n ==> IsDigit(s[i])
  {
    if s != [] && IsDigit(s[0]) then 1 + DigitRun(s[1..]) else 0
  }

  /** The value of the digits at the start of `s`. */
  function LeadingValue(s: string): nat
  {
    Value(s[..DigitRun(s)])
  }

  /** C's `atoi`: leading white space, an optional sign, then the decimal digits
      up to the first other character; 0 when there are none. */
  function Atoi(s: string): int
  {
    var t := s[SpaceRun(s)..];
    if t != [] && t[0] == '-' then -(LeadingValue(t[1..]) as int)
    else if t != [] && t[0] == '+' then LeadingValue(t[1..])
    else LeadingValue(t)
  }

  /** `%d` of a natural number: its decimal digits, without leading zeros. */
  function Decimal(n: nat): (s: string)
    ensures |s| >= 1 && forall i :: 0 <= i < |s| ==> IsDigit(s[i])
  {
    var digit := ['0' + (n % 10) as char];
    if n < 10 then digit else Decimal(n / 10) + digit
  }

  /** The digits of a decimal numeral are its value. */
  lemma {:induction false} DecimalValue(n: nat)
    ensures Value(Decimal(n)) == n
  {
    var s := Decimal(n);
    assert s[..|s| - 1] == if n < 10 then [] else Decimal(n / 10);
    if n >= 10 {
      DecimalValue(n / 10);
    }
  }

  /** The digit run of a string of digits is all of it. */
  lemma {:induction false} AllDigits(s: string)
    requires forall i :: 0 <= i < |s| ==> IsDigit(s[i])
    ensures DigitRun(s) == |s|
    decreases |s|
  {
    if s != [] {
      AllDigits(s[1..]);
    }
  }

  /** `atoi` reads back what `%d` writes. */
  lemma AtoiDecimal(n: nat)
    ensures Atoi(Decimal(n)) == n
  {
    var s := Decimal(n);
    assert SpaceRun(s) == 0 && s[0..] == s;
    AllDigits(s);
    assert s[..|s|] == s;
    DecimalValue(n);
  }

  // ---------------------------------------------------------------------------
  // `getRank` and `cmp`

  /** `getRank(key)`: the group of a layer name and its position in the group. */
  function Rank(key: string): (int, int)
  {
    if key == "token_embd" then (0, 0)
    else if |key| >= 4 && key[..4] == "blk." then (1, Atoi(key[4..]))
    else if key == "output_norm" then (2, 0)
    else if key == "output_weight" then (3, 0)
    else (4, 0)
  }

  /** `cmp(a, b)`: `a` goes before `b`, by group first and position second. */
  predicate Before(a: string, b: string)
  {
    RankLess(Rank(a), Rank(b))
  }

  /** The comparison of two ranks in `cmp`: group first, position second. */
  predicate RankLess(x: (int, int), y: (int, int))
  {
    if x.0 != y.0 then x.0 < y.0 else x.1 < y.1
  }

  /** `a` may stay before `b` in a sorted list. */
  predicate NotAfter(a: string, b: string)
  {
    !Before(b, a)
  }

  /** `cmp` is a strict weak ordering, as `std::sort` demands: irreflexive,
      transitive, and names that neither goes before are interchangeable
      (they have the same rank). */
  lemma StrictWeakOrder(a: string, b: string, c: string)
    ensures !Before(a, a)
    ensures Before(a, b) && Before(b, c) ==> Before(a, c)
    ensures !Before(a, b) && !Before(b, a) <==> Rank(a) == Rank(b)
    ensures NotAfter(a, b) && NotAfter(b, c) ==> NotAfter(a, c)
  {
    RankLessOrder(Rank(a), Rank(b), Rank(c));
  }

  lemma RankLessOrder(x: (int, int), y: (int, int), z: (int, int))
    ensures !RankLess(x, x)
    ensures RankLess(x, y) && RankLess(y, z) ==> RankLess(x, z)
    ensures !RankLess(x, y) && !RankLess(y, x) <==> x == y
    ensures !RankLess(y, x) && !RankLess(z, y) ==> !RankLess(z, x)
  {
  }

  /** The groups in order: `token_embd` before every other name, `blk.N` by the
      number `N`, every block before `output_norm`, `output_norm` before
      `output_weight`, and `output_weight` before every name outside these groups. */
  lemma RankOrder(m: nat, n: nat, other: string)
    requires other != "token_embd" && other != "output_norm" && other != "output_weight"
    requires !(|other| >= 4 && other[..4] == "blk.")
    ensures forall b :: Before("token_embd", b) <==> b != "token_embd"
    ensures Before("blk." + Decimal(m), "blk." + Decimal(n)) <==> m < n
    ensures Before("blk." + Decimal(n), "output_norm")
    ensures Before("output_norm", "output_weight")
    ensures Before("output_weight", other)
  {
    var bm, bn := "blk." + Decimal(m), "blk." + Decimal(n);
    assert bm[..4] == "blk." && bm[4..] == Decimal(m);
    assert bn[..4] == "blk." && bn[4..] == Decimal(n);
    AtoiDecimal(m);
    AtoiDecimal(n);
    assert bn != "output_norm" by {
      assert bn[0] != "output_norm"[0];
    }
  }

  // ---------------------------------------------------------------------------
  // `std::sort(sorted_layers.begin(), sorted_layers.end(), cmp)`

  ghost predicate SortedByRank(s: seq<string>)
  {
    forall i, j :: 0 <= i < j < |s| ==> NotAfter(s[i], s[j])
  }

  /** The first `n` names are in order. */
  ghost predicate SortedPrefix(s: seq<string>, n: nat)
    requires n <= |s|
  {
    forall p, q :: 0 <= p < q < n ==> NotAfter(s[p], s[q])
  }

  /** While the `i`-th name sinks to its place, now `j`: the names up to `i`
      other than the one at `j` are in order, and it goes after none of those
      behind it. */
  ghost predicate Sinking(s: seq<string>, i: nat, j: nat)
    requires j <= i < |s|
  {
    && (forall p, q :: 0 <= p < q <= i && p != j && q != j ==> NotAfter(s[p], s[q]))
    && (forall q :: j < q <= i ==> NotAfter(s[j], s[q]))
  }

  /** The next name starts sinking from where it is. */
  lemma SinkStart(s: seq<string>, i: nat)
    requires i < |s| && SortedPrefix(s, i)
    ensures Sinking(s, i, i)
  {
  }

  /** Swapping the sinking name with the one in front of it, which it goes
      before, keeps the names in order around it. */
  lemma SinkStep(s: seq<string>, i: nat, j: nat)
    requires 0 < j <= i < |s| && Sinking(s, i, j) && Before(s[j], s[j - 1])
    ensures Sinking(s[j - 1 := s[j]][j := s[j - 1]], i, j - 1)
  {
    var t := s[j - 1 := s[j]][j := s[j - 1]];
    forall q | j - 1 < q <= i
      ensures NotAfter(t[j - 1], t[q])
    {
      if q > j {
        StrictWeakOrder(t[q], s[j - 1], s[j]);
      }
    }
    forall p, q | 0 <= p < q <= i && p != j - 1 && q != j - 1
      ensures NotAfter(t[p], t[q])
    {
      if q == j {
        assert t[q] == s[j - 1];
      } else if p == j {
        StrictWeakOrder(t[q], s[j], s[j - 1]);
      }
    }
  }

  /** Once the sinking name goes after none in front of it, one more name is
      in order. */
  lemma SinkEnd(s: seq<string>, i: nat, j: nat)
    requires j <= i < |s| && Sinking(s, i, j)
    requires j == 0 || !Before(s[j], s[j - 1])
    ensures SortedPrefix(s, i + 1)
  {
    forall p, q | 0 <= p < q <= i
      ensures NotAfter(s[p], s[q])
    {
      if q == j && p < j - 1 {
        assert NotAfter(s[p], s[j - 1]) && NotAfter(s[j - 1], s[j]);
        StrictWeakOrder(s[p], s[j - 1], s[j]);
      }
    }
  }

  /** Sorts the layer names in place by `cmp`.  `std::sort` is not stable, so
      which of two names of equal rank comes first is not specified; this sort
      is one such order. */
  method SortLayers(a: array<string>)
    modifies a
    ensures SortedByRank(a[..])
    ensures multiset(a[..]) == old(multiset(a[..]))
  {
    var i := 0;
    while i < a.Length
      invariant i <= a.Length && SortedPrefix(a[..], i)
      invariant multiset(a[..]) == old(multiset(a[..]))
    {
      SinkStart(a[..], i);
      var j := i;
      while j > 0 && Before(a[j], a[j - 1])
        invariant 0 <= j <= i && Sinking(a[..], i, j)
        invariant multiset(a[..]) == old(multiset(a[..]))
      {
        ghost var s := a[..];
        SinkStep(s, i, j);
        a[j - 1], a[j] := a[j], a[j - 1];
        assert a[..] == s[j - 1 := s[j]][j := s[j - 1]];
        j := j - 1;
      }
      SinkEnd(a[..], i, j);
      i := i + 1;
    }
  }
}

=== FILE: log_parser.dfy ===
/** `parse_log`: reads the offline-planning log line by line and collects the
    IO speed samples, the layer sizes and the per-layer compute and release
    times that the planner takes as its input. */
module LogParser {
  import opened Common
  import opened LogPatterns

  /** The dictionary `parse_log` returns. */
  datatype Profile = Profile(ioSpeed: nat, layerSizes: seq<nat>, tCompute: seq<nat>, tRelease: seq<nat>)

  // ---------------------------------------------------------------------------
  // One line

  /** The values of the groups of the first match of `toks` in `line`, if any. */
  function Captured(toks: seq<Token>, line: string): (r: Option<seq<nat>>)
    ensures r.Some? ==> |r.value| == Groups(toks)
  {
    match Search(toks, line)
    case None => None
    case Some((i, _, caps)) =>
      MatchPrefixGroups(toks, line[i..]);
      Some(caps)
  }

  /** `int(m.group(1))` when the line matches.  The patterns it is used with
      have that group (`PatternGroups`), so a match always yields a sample. */
  function Sample(toks: seq<Token>, line: string): Option<nat>
  {
    match Captured(toks, line)
    case Some(caps) => if |caps| >= 1 then Some(caps[0]) else None
    case None => None
  }

  /** `(int(m.group(1)), int(m.group(2)))` when the line matches.  The patterns
      it is used with have both groups (`PatternGroups`). */
  function Timing(toks: seq<Token>, line: string): Option<(nat, nat)>
  {
    match Captured(toks, line)
    case Some(caps) => if |caps| >= 2 then Some((caps[0], caps[1])) else None
    case None => None
  }

  /** The pattern counts its groups as `parse_log` reads them. */
  lemma PatternGroups()
    ensures Groups(IoSpeedPattern) == 1 && Groups(LayerSizePattern) == 1
    ensures Groups(ComputePattern) == 2 && Groups(ReleasePattern) == 2
  {
    assert Groups([Lit("MB/s")]) == 0;
    assert Groups([Lit("MB")]) == 0;
    assert Groups([Lit("ms")]) == 0;
    assert Groups(ComputePattern[4..]) == 1;
    assert Groups(ReleasePattern[5..]) == 1;
  }

  // ---------------------------------------------------------------------------
  // The whole log, as specifications

  /** The list `parse_log` appends one sample to for every line that matches. */
  function Samples(toks: seq<Token>, lines: seq<string>): (r: seq<nat>)
    ensures |r| <= |lines|
  {
    if lines == [] then []
    else
      var earlier := Samples(toks, lines[..|lines| - 1]);
      match Sample(toks, lines[|lines| - 1])
      case None => earlier
      case Some(v) => earlier + [v]
  }

  /** The dictionary `parse_log` stores `index -> time` in, one assignment per
      matching line. */
  function Timings(toks: seq<Token>, lines: seq<string>): map<nat, nat>
  {
    if lines == [] then map[]
    else
      var earlier := Timings(toks, lines[..|lines| - 1]);
      match Timing(toks, lines[|lines| - 1])
      case None => earlier
      case Some((k, v)) => earlier[k := v]
  }

  /** The line matches and reports index `k`. */
  ghost predicate HasKey(toks: seq<Token>, line: string, k: nat)
  {
    Timing(toks, line).Some? && Timing(toks, line).value.0 == k
  }

  /** Samples of consecutive stretches of the log are concatenated. */
  lemma {:induction false} SamplesAppend(toks: seq<Token>, a: seq<string>, b: seq<string>)
    ensures Samples(toks, a + b) == Samples(toks, a) + Samples(toks, b)
    decreases |b|
  {
    if b != [] {
      var b' := b[..|b| - 1];
      assert (a + b)[..|a + b| - 1] == a + b';
      assert (a + b)[|a + b| - 1] == b[|b| - 1];
      SamplesAppend(toks, a, b');
    } else {
      assert a + b == a;
    }
  }

  /** Every sample comes from a matching line, and every matching line
      contributes exactly one sample. */
  lemma {:induction false} SamplesFromLines(toks: seq<Token>, lines: seq<string>)
    ensures forall v :: v in Samples(toks, lines) ==> exists i :: 0 <= i < |lines| && Sample(toks, lines[i]) == Some(v)
    ensures (forall i :: 0 <= i < |lines| ==> Sample(toks, lines[i]).Some?) ==> |Samples(toks, lines)| == |lines|
    ensures (forall i :: 0 <= i < |lines| ==> Sample(toks, lines[i]).None?) ==> Samples(toks, lines) == []
    decreases |lines|
  {
    if lines != [] {
      var init := lines[..|lines| - 1];
      SamplesFromLines(toks, init);
      assert forall i :: 0 <= i < |init| ==> init[i] == lines[i];
    }
  }

  /** The value stored for a key is the one of the last line that reports it. */
  lemma {:induction false} TimingsLastWins(toks: seq<Token>, lines: seq<string>, i: nat, k: nat)
    requires i < |lines| && HasKey(toks, lines[i], k)
    requires forall j :: i < j < |lines| ==> !HasKey(toks, lines[j], k)
    ensures k in Timings(toks, lines) && Timings(toks, lines)[k] == Timing(toks, lines[i]).value.1
    decreases |lines|
  {
    var init, last := lines[..|lines| - 1], |lines| - 1;
    if i < last {
      assert !HasKey(toks, lines[last], k);
      assert init[i] == lines[i];
      TimingsLastWins(toks, init, i, k);
    }
  }

  /** Only keys that some line reports are stored. */
  lemma {:induction false} TimingsKeysReported(toks: seq<Token>, lines: seq<string>, k: nat)
    requires k in Timings(toks, lines)
    ensures exists i :: 0 <= i < |lines| && HasKey(toks, lines[i], k)
    decreases |lines|
  {
    var init, last := lines[..|lines| - 1], |lines| - 1;
    if !HasKey(toks, lines[last], k) {
      TimingsKeysReported(toks, init, k);
      var i :| 0 <= i < |init| && HasKey(toks, init[i], k);
      assert init[i] == lines[i];
    }
  }

  // ---------------------------------------------------------------------------
  // `sorted(d)` and `[d[i] for i in sorted(d)]`

  ghost predicate Increasing(ks: seq<nat>)
  {
    forall i, j :: 0 <= i < j < |ks| ==> ks[i] < ks[j]
  }

  /** The least element of a finite non-empty set of naturals. */
  lemma {:induction false} LeastOf(s: set<nat>) returns (x: nat)
    requires s != {}
    ensures x in s && forall z :: z in s ==> x <= z
    decreases s
  {
    var y :| y in s;
    if s == {y} {
      x := y;
    } else {
      var x' := LeastOf(s - {y});
      x := if y < x' then y else x';
      forall z | z in s
        ensures x <= z
      {
        if z != y {
          assert z in s - {y};
        }
      }
    }
  }

  lemma LeastExists(s: set<nat>)
    requires s != {}
    ensures exists x :: x in s && forall y :: y in s ==> x <= y
  {
    var x := LeastOf(s);
  }

  /** `min` of a non-empty set of keys. */
  function Least(s: set<nat>): (x: nat)
    requires s != {}
    ensures x in s && forall y :: y in s ==> x <= y
  {
    LeastExists(s);
    var x :| x in s && forall y :: y in s ==> x <= y;
    x
  }

  /** `sorted` of a set of keys: the least key first, then the others sorted. */
  function SortedKeys(s: set<nat>): (ks: seq<nat>)
    ensures forall i :: 0 <= i < |ks| ==> ks[i] in s
    ensures Increasing(ks)
    decreases s
  {
    if s == {} then []
    else
      var x := Least(s);
      var rest := SortedKeys(s - {x});
      assert forall i :: 0 <= i < |rest| ==> x < rest[i];
      [x] + rest
  }

  /** The keys of `s` smaller than `k`. */
  ghost function Below(s: set<nat>, k: nat): set<nat>
  {
    set j | j in s && j < k
  }

  /** Every key is listed by `sorted`. */
  lemma {:induction false} SortedKeysComplete(s: set<nat>, k: nat)
    requires k in s
    ensures exists i :: 0 <= i < |SortedKeys(s)| && SortedKeys(s)[i] == k
    decreases s
  {
    var x := Least(s);
    if k == x {
      assert SortedKeys(s)[0] == k;
    } else {
      SortedKeysComplete(s - {x}, k);
      var i :| 0 <= i < |SortedKeys(s - {x})| && SortedKeys(s - {x})[i] == k;
      assert SortedKeys(s)[i + 1] == k;
    }
  }

  /** `sorted` lists every key once. */
  lemma {:induction false} SortedKeysCount(s: set<nat>)
    ensures |SortedKeys(s)| == |s|
    decreases s
  {
    if s != {} {
      SortedKeysCount(s - {Least(s)});
    }
  }

  lemma BelowLeast(s: set<nat>, x: nat)
    requires forall j :: j in s ==> x <= j
    ensures Below(s, x) == {}
  {
  }

  lemma BelowStep(s: set<nat>, x: nat, k: nat)
    requires x in s && x < k
    ensures |Below(s, k)| == |Below(s - {x}, k)| + 1
  {
    assert Below(s, k) == Below(s - {x}, k) + {x};
  }

  /** The key at position `i` of `sorted(s)` has exactly `i` smaller keys. */
  lemma {:induction false} SortedKeysRank(s: set<nat>, i: nat)
    requires i < |SortedKeys(s)|
    ensures |Below(s, SortedKeys(s)[i])| == i
    decreases s
  {
    var x := Least(s);
    if i == 0 {
      BelowLeast(s, x);
    } else {
      var rest := s - {x};
      var k := SortedKeys(rest)[i - 1];
      SortedKeysRank(rest, i - 1);
      assert SortedKeys(s)[i] == k;
      BelowStep(s, x, k);
    }
  }

  /** The values of a dictionary, in increasing order of their keys. */
  function InKeyOrder(m: map<nat, nat>): (t: seq<nat>)
    ensures |t| == |m.Keys|
  {
    SortedKeysCount(m.Keys);
    var ks := SortedKeys(m.Keys);
    seq(|ks|, i requires 0 <= i < |ks| => m[ks[i]])
  }

  lemma InKeyOrderAt(m: map<nat, nat>, k: nat)
    requires k in m
    ensures |Below(m.Keys, k)| < |InKeyOrder(m)| && InKeyOrder(m)[|Below(m.Keys, k)|] == m[k]
  {
    SortedKeysComplete(m.Keys, k);
    var i :| 0 <= i < |SortedKeys(m.Keys)| && SortedKeys(m.Keys)[i] == k;
    SortedKeysRank(m.Keys, i);
    assert InKeyOrder(m)[i] == m[k];
  }

  /** `InKeyOrder(m)` lists the values of `m` by the rank of their keys: it is as
      long as `m`, and the value of a key with `i` smaller keys is at position `i`. */
  lemma InKeyOrderRanks(m: map<nat, nat>)
    ensures |InKeyOrder(m)| == |m.Keys|
    ensures forall k :: k in m ==>
              |Below(m.Keys, k)| < |InKeyOrder(m)| && InKeyOrder(m)[|Below(m.Keys, k)|] == m[k]
  {
    forall k | k in m {
      InKeyOrderAt(m, k);
    }
  }

  // ---------------------------------------------------------------------------
  // `round(sum(xs) / len(xs))`

  /** Python's `round` of the quotient `num / den`: to the nearest integer,
      halves to the even neighbour. */
  function RoundHalfEven(num: nat, den: nat): nat
    requires den > 0
  {
    var q, rem := num / den, num % den;
    if 2 * rem < den then q
    else if 2 * rem > den then q + 1
    else if q % 2 == 0 then q
    else q + 1
  }

  /** `RoundHalfEven(num, den)` is an integer nearest to `num / den`, and the
      even one when `num / den` lies halfway between two integers. */
  lemma RoundHalfEvenNearest(num: nat, den: nat)
    requires den > 0
    ensures var r := RoundHalfEven(num, den);
            2 * Distance(num, r * den) <= den && (2 * Distance(num, r * den) == den ==> r % 2 == 0)
  {
    var q, rem := num / den, num % den;
    assert num == q * den + rem;
    MulStep(q, den);
  }

  function Distance(a: int, b: int): nat
  {
    if a >= b then a - b else b - a
  }

  /** Only one integer is as close to `num / den` as `RoundHalfEven` requires. */
  lemma RoundHalfEvenUnique(num: nat, den: nat, x: nat)
    requires den > 0
    requires 2 * Distance(num, x * den) <= den
    requires 2 * Distance(num, x * den) == den ==> x % 2 == 0
    ensures x == RoundHalfEven(num, den)
  {
    var r := RoundHalfEven(num, den);
    RoundHalfEvenNearest(num, den);
    if x != r {
      var lo, hi := if x < r then x else r, if x < r then r else x;
      MulLe(den, lo + 1, hi);
      MulStep(lo, den);
      BothTies(num, den, lo * den, hi * den);
      MulStep(lo, den);
      MulCancel(den, hi, lo + 1);
    }
  }

  /** Two multiples of `den` at least `den` apart are both within `den / 2` of
      `num` only when both are exactly `den / 2` away, and `den` apart. */
  lemma BothTies(num: int, den: int, a: int, b: int)
    requires 2 * Distance(num, a) <= den && 2 * Distance(num, b) <= den && b >= a + den
    ensures 2 * Distance(num, a) == den && 2 * Distance(num, b) == den && b == a + den
  {
  }

  lemma MulStep(a: nat, c: nat)
    ensures (a + 1) * c == a * c + c
  {
  }

  /** `io_speed`: the rounded mean of the samples, 0 when there are none. */
  function MeanSpeed(xs: seq<nat>): nat
  {
    if xs == [] then 0 else RoundHalfEven(Total(xs), |xs|)
  }

  // ---------------------------------------------------------------------------
  // The loop

  /** One more line of the log: its sample, if any, is appended. */
  lemma SamplesStep(toks: seq<Token>, lines: seq<string>, n: nat)
    requires n < |lines|
    ensures Samples(toks, lines[..n + 1]) ==
              match Sample(toks, lines[n])
              case None => Samples(toks, lines[..n])
              case Some(v) => Samples(toks, lines[..n]) + [v]
  {
    assert lines[..n + 1][..n] == lines[..n];
  }

  /** One more line of the log: its index, if any, is (re)assigned. */
  lemma TimingsStep(toks: seq<Token>, lines: seq<string>, n: nat)
    requires n < |lines|
    ensures Timings(toks, lines[..n + 1]) ==
              match Timing(toks, lines[n])
              case None => Timings(toks, lines[..n])
              case Some((k, v)) => Timings(toks, lines[..n])[k := v]
  {
    assert lines[..n + 1][..n] == lines[..n];
  }

  /** `parse_log` over the lines of the log file: the mean IO speed rounded, the
      layer sizes in log order, and the compute and release times in order of
      their layer index. */
  method ParseLog(lines: seq<string>) returns (p: Profile)
    ensures p.ioSpeed == MeanSpeed(Samples(IoSpeedPattern, lines))
    ensures p.layerSizes == Samples(LayerSizePattern, lines)
    ensures p.tCompute == InKeyOrder(Timings(ComputePattern, lines))
    ensures p.tRelease == InKeyOrder(Timings(ReleasePattern, lines))
  {
    var ioSpeeds, layerSizes: seq<nat> := [], [];
    var computeTimes, releaseTimes: map<nat, nat> := map[], map[];
    for n := 0 to |lines|
      invariant ioSpeeds == Samples(IoSpeedPattern, lines[..n])
      invariant layerSizes == Samples(LayerSizePattern, lines[..n])
      invariant computeTimes == Timings(ComputePattern, lines[..n])
      invariant releaseTimes == Timings(ReleasePattern, lines[..n])
    {
      var line := lines[n];
      var speed, size := Sample(IoSpeedPattern, line), Sample(LayerSizePattern, line);
      var compute, release := Timing(ComputePattern, line), Timing(ReleasePattern, line);
      if speed.Some? {
        ioSpeeds := ioSpeeds + [speed.value];
      }
      if size.Some? {
        layerSizes := layerSizes + [size.value];
      }
      if compute.Some? {
        computeTimes := computeTimes[compute.value.0 := compute.value.1];
      }
      if release.Some? {
        releaseTimes := releaseTimes[release.value.0 := release.value.1];
      }
      assert ioSpeeds == Samples(IoSpeedPattern, lines[..n + 1]) by {
        SamplesStep(IoSpeedPattern, lines, n);
      }
      assert layerSizes == Samples(LayerSizePattern, lines[..n + 1]) by {
        SamplesStep(LayerSizePattern, lines, n);
      }
      assert computeTimes == Timings(ComputePattern, lines[..n + 1]) by {
        TimingsStep(ComputePattern, lines, n);
      }
      assert releaseTimes == Timings(ReleasePattern, lines[..n + 1]) by {
        TimingsStep(ReleasePattern, lines, n);
      }
    }
    assert lines[..|lines|] == lines;
    var ioSpeed := if ioSpeeds != [] then RoundHalfEven(Total(ioSpeeds), |ioSpeeds|) else 0;
    p := Profile(ioSpeed, layerSizes, InKeyOrder(computeTimes), InKeyOrder(releaseTimes));
  }
}

=== FILE: log_patterns.dfy ===
/** The four regular expressions of `parse_log` and Python's `re.search` over them.
    A pattern is a sequence of tokens: a literal, `(\d+)` (a captured run of at
    least one digit) or `\s*` (a possibly empty run of white space).  The greedy
    matcher below is checked against the plain language definition `Derives`. */
module LogPatterns {
  import opened Common

  datatype Token = Lit(text: string) | Digits | Spaces

  /** The characters a repeated token accepts. */
  predicate InClass(t: Token, c: char)
  {
    match t
    case Lit(_) => false
    case Digits => IsDigit(c)
    case Spaces => IsSpace(c)
  }

  ghost predicate AllIn(t: Token, s: string)
  {
    forall i :: 0 <= i < |s| ==> InClass(t, s[i])
  }

  /** The longest prefix of `s` made of characters of the class of `t`. */
  function Span(t: Token, s: string): (n: nat)
    ensures n <= |s|
    ensures AllIn(t, s[..n])
    ensures n < |s| ==> !InClass(t, s[n])
  {
    if s != [] && InClass(t, s[0]) then
      var n := 1 + Span(t, s[1..]);
      assert forall i :: 1 <= i < n ==> s[..n][i] == s[1..][..n - 1][i - 1];
      n
    else 0
  }

  /** A run of class characters that is followed by a character outside the class
      is exactly the span. */
  lemma {:induction false} SpanExact(t: Token, s: string, n: nat)
    requires n < |s| && AllIn(t, s[..n]) && !InClass(t, s[n])
    ensures Span(t, s) == n
  {
    if n > 0 {
      assert s[0] == s[..n][0];
      assert s[1..][..n - 1] == s[..n][1..];
      SpanExact(t, s[1..], n - 1);
    }
  }

  /** How many groups a token captures: one for `(\d+)`, none otherwise. */
  function Width(t: Token): nat
  {
    if t.Digits? then 1 else 0
  }

  /** How many groups a pattern captures. */
  function Groups(toks: seq<Token>): nat
  {
    if toks == [] then 0 else Width(toks[0]) + Groups(toks[1..])
  }

  /** The language of one token: `q` is matched, as a whole, by `t`, capturing `c`. */
  ghost predicate TokenDerives(t: Token, q: string, c: seq<nat>)
  {
    match t
    case Lit(l) => q == l && c == []
    case Digits => |q| >= 1 && AllIn(Digits, q) && c == [Value(q)]
    case Spaces => AllIn(Spaces, q) && c == []
  }

  /** The language of a pattern: `p` is matched, as a whole, by `toks`, and
      `caps` are the values of its groups.  Any split of `p` will do. */
  ghost predicate Derives(toks: seq<Token>, p: string, caps: seq<nat>)
    decreases toks
  {
    if toks == [] then p == [] && caps == []
    else
      var w := Width(toks[0]);
      w <= |caps| &&
      exists d: nat :: d <= |p| && TokenDerives(toks[0], p[..d], caps[..w]) && Derives(toks[1..], p[d..], caps[w..])
  }

  /** Greedy matching of one token at the start of `s`: a repeated token takes
      its longest run.  Returns the length matched and the captured values. */
  function TokenMatch(t: Token, s: string): (r: Option<(nat, seq<nat>)>)
    ensures r.Some? ==> r.value.0 <= |s| && |r.value.1| == Width(t)
  {
    match t
    case Lit(l) => if l <= s then Some((|l|, [])) else None
    case Digits =>
      var n := Span(Digits, s);
      if n == 0 then None else Some((n, [Value(s[..n])]))
    case Spaces => Some((Span(Spaces, s), []))
  }

  /** Greedy matching of a prefix of `s` by a whole pattern. */
  function MatchPrefix(toks: seq<Token>, s: string): (r: Option<(nat, seq<nat>)>)
    ensures r.Some? ==> r.value.0 <= |s|
    decreases toks
  {
    if toks == [] then
      var empty: (nat, seq<nat>) := (0, []);
      Some(empty)
    else
      match TokenMatch(toks[0], s)
      case None => None
      case Some((d, c)) => Advance(d, c, MatchPrefix(toks[1..], s[d..]))
  }

  /** The match of the rest of a pattern, after `d` characters and the groups `caps`. */
  function Advance(d: nat, caps: seq<nat>, rest: Option<(nat, seq<nat>)>): (r: Option<(nat, seq<nat>)>)
    ensures r.Some? <==> rest.Some?
    ensures r.Some? ==> r.value.0 == d + rest.value.0 && r.value.1 == caps + rest.value.1
  {
    match rest
    case None => None
    case Some((m, more)) =>
      var n: nat := d + m;
      Some((n, caps + more))
  }

  /** A successful match captures one value per group of the pattern. */
  lemma {:induction false} MatchPrefixGroups(toks: seq<Token>, s: string)
    requires MatchPrefix(toks, s).Some?
    ensures |MatchPrefix(toks, s).value.1| == Groups(toks)
    decreases toks
  {
    if toks != [] {
      var d := TokenMatch(toks[0], s).value.0;
      MatchPrefixGroups(toks[1..], s[d..]);
    }
  }

  /** What the one-token matcher returns is a match of that token. */
  lemma TokenMatchSound(t: Token, s: string)
    requires TokenMatch(t, s).Some?
    ensures var (d, c) := TokenMatch(t, s).value; TokenDerives(t, s[..d], c)
  {
  }

  /** A match of one token that is not followed by another character of its
      class is what the one-token matcher returns. */
  lemma TokenMatchComplete(t: Token, s: string, d: nat, c: seq<nat>)
    requires d <= |s| && TokenDerives(t, s[..d], c)
    requires !t.Lit? ==> d < |s| && !InClass(t, s[d])
    ensures TokenMatch(t, s) == Some((d, c))
  {
    if !t.Lit? {
      SpanExact(t, s, d);
    }
  }

  /** Whatever the greedy matcher returns is a match of the pattern. */
  lemma {:induction false} MatchPrefixSound(toks: seq<Token>, s: string)
    requires MatchPrefix(toks, s).Some?
    ensures var (n, caps) := MatchPrefix(toks, s).value; Derives(toks, s[..n], caps)
    decreases toks
  {
    if toks != [] {
      var (n, caps) := MatchPrefix(toks, s).value;
      var (d, c) := TokenMatch(toks[0], s).value;
      var (m, more) := MatchPrefix(toks[1..], s[d..]).value;
      TokenMatchSound(toks[0], s);
      MatchPrefixSound(toks[1..], s[d..]);
      var p, w := s[..n], Width(toks[0]);
      assert n == d + m && caps == c + more;
      assert p[..d] == s[..d] && p[d..] == s[d..][..m];
      assert caps[..w] == c && caps[w..] == more;
    }
  }

  /** A literal that can follow a repeated token: non-empty, and starting with
      neither a digit nor white space. */
  predicate Guard(t: Token)
  {
    t.Lit? && |t.text| > 0 && !IsDigit(t.text[0]) && !IsSpace(t.text[0])
  }

  /** Every repeated token is followed by a guarding literal, or `(\d+)` by `\s*`
      and then a guarding literal.  Then a match, where one exists, is unique and
      the greedy matcher finds it. */
  predicate WellFormed(toks: seq<Token>)
  {
    toks == [] ||
    ((toks[0].Lit? ||
      (|toks| > 1 && Guard(toks[1])) ||
      (toks[0].Digits? && |toks| > 2 && toks[1].Spaces? && Guard(toks[2])))
     && WellFormed(toks[1..]))
  }

  /** A match of a pattern that starts with a guarding literal starts with a
      character that is neither a digit nor white space. */
  lemma GuardedStart(toks: seq<Token>, p: string, caps: seq<nat>)
    requires toks != [] && Guard(toks[0]) && Derives(toks, p, caps)
    ensures |p| > 0 && !IsDigit(p[0]) && !IsSpace(p[0])
  {
    var d: nat :| d <= |p| && TokenDerives(toks[0], p[..d], caps[..0]) && Derives(toks[1..], p[d..], caps[0..]);
    assert p[0] == p[..d][0];
  }

  /** In a match of a well-formed pattern, the character after a repeated token's
      run is outside that token's class. */
  lemma RunEnds(toks: seq<Token>, p: string, d: nat, rest: seq<nat>)
    requires toks != [] && !toks[0].Lit? && WellFormed(toks)
    requires d <= |p| && Derives(toks[1..], p[d..], rest)
    ensures d < |p| && !InClass(toks[0], p[d])
  {
    var q, tail := p[d..], toks[1..];
    if !Guard(tail[0]) {
      var e: nat :| e <= |q| && TokenDerives(tail[0], q[..e], rest[..0]) && Derives(tail[1..], q[e..], rest[0..]);
      GuardedStart(tail[1..], q[e..], rest[0..]);
      if e > 0 {
        assert IsSpace(q[..e][0]);
      } else {
        assert q[e..] == q;
      }
    } else {
      GuardedStart(tail, q, rest);
    }
    assert p[d] == q[0];
  }

  /** A match of the first token followed by a match of the rest is a match of
      the whole pattern. */
  lemma ComposeMatch(toks: seq<Token>, s: string, n: nat, caps: seq<nat>, d: nat, c: seq<nat>, more: seq<nat>)
    requires toks != [] && d <= n && d <= |s| && caps == c + more
    requires TokenMatch(toks[0], s) == Some((d, c))
    requires MatchPrefix(toks[1..], s[d..]) == Some((n - d, more))
    ensures MatchPrefix(toks, s) == Some((n, caps))
  {
    var rest := MatchPrefix(toks[1..], s[d..]);
    assert MatchPrefix(toks, s) == Advance(d, c, rest);
    var r := Advance(d, c, rest);
    assert r.Some? && r.value.0 == n && r.value.1 == caps;
  }

  lemma SliceShift(s: string, n: nat, d: nat)
    requires d <= n <= |s|
    ensures s[..n][d..] == s[d..][..n - d]
  {
  }

  lemma SplitJoin(s: seq<nat>, w: nat)
    requires w <= |s|
    ensures s[..w] + s[w..] == s
  {
  }

  /** In a match of a well-formed pattern, the greedy one-token matcher finds
      the first token's part of the match. */
  lemma HeadComplete(toks: seq<Token>, s: string, n: nat, d: nat, c: seq<nat>, rest: seq<nat>)
    requires toks != [] && WellFormed(toks) && d <= n <= |s|
    requires TokenDerives(toks[0], s[..n][..d], c) && Derives(toks[1..], s[..n][d..], rest)
    ensures TokenMatch(toks[0], s) == Some((d, c))
  {
    var p := s[..n];
    assert p[..d] == s[..d];
    if !toks[0].Lit? {
      RunEnds(toks, p, d, rest);
    }
    TokenMatchComplete(toks[0], s, d, c);
  }

  /** Splits a match of a non-empty pattern into its first token's part and the rest. */
  lemma SplitMatch(toks: seq<Token>, s: string, n: nat, caps: seq<nat>) returns (d: nat)
    requires toks != [] && n <= |s| && Derives(toks, s[..n], caps)
    ensures d <= n && Width(toks[0]) <= |caps|
    ensures TokenDerives(toks[0], s[..n][..d], caps[..Width(toks[0])])
    ensures Derives(toks[1..], s[..n][d..], caps[Width(toks[0])..])
    ensures Derives(toks[1..], s[d..][..n - d], caps[Width(toks[0])..])
  {
    var p, w := s[..n], Width(toks[0]);
    d :| d <= |p| && TokenDerives(toks[0], p[..d], caps[..w]) && Derives(toks[1..], p[d..], caps[w..]);
    SliceShift(s, n, d);
  }

  /** For a well-formed pattern the greedy matcher finds every match: a match of
      `s[..n]` with groups `caps` is exactly what it returns on `s`. */
  lemma {:induction false} MatchPrefixComplete(toks: seq<Token>, s: string, n: nat, caps: seq<nat>)
    requires WellFormed(toks) && n <= |s| && Derives(toks, s[..n], caps)
    ensures MatchPrefix(toks, s) == Some((n, caps))
    decreases toks
  {
    if toks != [] {
      var w := Width(toks[0]);
      var d := SplitMatch(toks, s, n, caps);
      HeadComplete(toks, s, n, d, caps[..w], caps[w..]);
      MatchPrefixComplete(toks[1..], s[d..], n - d, caps[w..]);
      SplitJoin(caps, w);
      ComposeMatch(toks, s, n, caps, d, caps[..w], caps[w..]);
    }
  }

  /** Some prefix of `s` is a match of the pattern. */
  ghost predicate MatchesAt(toks: seq<Token>, s: string)
  {
    exists n: nat, caps :: n <= |s| && Derives(toks, s[..n], caps)
  }

  /** `re.search` from position `i` on: the first position at which the greedy
      matcher succeeds, with the match's length and groups. */
  function SearchFrom(toks: seq<Token>, line: string, i: nat): (r: Option<(nat, nat, seq<nat>)>)
    requires i <= |line|
    ensures r.Some? ==> i <= r.value.0 <= |line| && MatchPrefix(toks, line[r.value.0..]) == Some((r.value.1, r.value.2))
    decreases |line| - i
  {
    match MatchPrefix(toks, line[i..])
    case Some((n, caps)) => Some((i, n, caps))
    case None => if i == |line| then None else SearchFrom(toks, line, i + 1)
  }

  /** No position between `i` and the one `SearchFrom` reports (or the end of
      the line, when it reports nothing) is accepted by the greedy matcher. */
  lemma {:induction false} SearchFromFirst(toks: seq<Token>, line: string, i: nat, j: nat)
    requires i <= j <= |line|
    requires SearchFrom(toks, line, i).Some? ==> j < SearchFrom(toks, line, i).value.0
    ensures MatchPrefix(toks, line[j..]).None?
    decreases j - i
  {
    if i < j {
      SearchFromFirst(toks, line, i + 1, j);
    }
  }

  /** `re.search(pattern, line)`. */
  function Search(toks: seq<Token>, line: string): Option<(nat, nat, seq<nat>)>
  {
    SearchFrom(toks, line, 0)
  }

  /** For a well-formed pattern, `Search` agrees with the definition of
      `re.search`: it reports a match at the leftmost position where one exists,
      the groups it reports are those of every match there, and it reports
      nothing exactly when no position has a match. */
  lemma SearchIsLeftmost(toks: seq<Token>, line: string)
    requires WellFormed(toks)
    ensures Search(toks, line).None? <==> forall j :: 0 <= j <= |line| ==> !MatchesAt(toks, line[j..])
    ensures Search(toks, line).Some? ==>
              var (i, n, caps) := Search(toks, line).value;
              && i + n <= |line|
              && Derives(toks, line[i..][..n], caps)
              && (forall j :: 0 <= j < i ==> !MatchesAt(toks, line[j..]))
              && (forall m: nat, caps' :: m <= |line| - i && Derives(toks, line[i..][..m], caps') ==> m == n && caps' == caps)
  {
    var r := Search(toks, line);
    forall j | 0 <= j <= |line| && (r.Some? ==> j < r.value.0)
      ensures !MatchesAt(toks, line[j..])
    {
      SearchFromFirst(toks, line, 0, j);
      if MatchesAt(toks, line[j..]) {
        var m: nat, caps' :| m <= |line[j..]| && Derives(toks, line[j..][..m], caps');
        MatchPrefixComplete(toks, line[j..], m, caps');
      }
    }
    if r.Some? {
      var (i, n, caps) := r.value;
      MatchPrefixSound(toks, line[i..]);
      forall m: nat, caps' | m <= |line| - i && Derives(toks, line[i..][..m], caps')
        ensures m == n && caps' == caps
      {
        MatchPrefixComplete(toks, line[i..], m, caps');
      }
      assert MatchesAt(toks, line[i..]);
    }
  }

  // ---------------------------------------------------------------------------
  // The four patterns of `parse_log`

  /** `IO Speed:(\d+)\s*MB/s` */
  const IoSpeedPattern: seq<Token> := [Lit("IO Speed:"), Digits, Spaces, Lit("MB/s")]

  /** `layer size:(\d+)\s*MB` */
  const LayerSizePattern: seq<Token> := [Lit("layer size:"), Digits, Spaces, Lit("MB")]

  /** `compute index:blk\.(\d+)\s*compute time:(\d+)\s*ms` */
  const ComputePattern: seq<Token> :=
    [Lit("compute index:blk."), Digits, Spaces, Lit("compute time:"), Digits, Spaces, Lit("ms")]

  /** `release index:blk\.(\d+),\s*release time:(\d+)\s*ms` */
  const ReleasePattern: seq<Token> :=
    [Lit("release index:blk."), Digits, Lit(","), Spaces, Lit("release time:"), Digits, Spaces, Lit("ms")]

  /** All four patterns are well formed, so `Search` is `re.search` on them. */
  lemma PatternsWellFormed()
    ensures WellFormed(IoSpeedPattern) && WellFormed(LayerSizePattern)
    ensures WellFormed(ComputePattern) && WellFormed(ReleasePattern)
  {
    assert Guard(Lit("MB/s")) && Guard(Lit("MB")) && Guard(Lit("compute time:")) && Guard(Lit("ms"));
    assert Guard(Lit(",")) && Guard(Lit("release time:"));
  }
}

=== FILE: page_align.dfy ===
/** The page arithmetic of the prefetcher: the outward rounding of a weight
    fragment before it is mapped in (`prefetch_weights`,
    `one_thread_prefetch_weights`) and the inward rounding before it is paged
    out (`de_prefetch_weights`).  Offsets are `size_t`, so every sum and
    difference is taken modulo 2^64; the page size is 2^shift. */
module PageAlign {
  import opened Common

  /** The number of `size_t` values. */
  const WORD: nat := 0x1_0000_0000_0000_0000

  /** A `size_t`. */
  type Size = x: int | 0 <= x < WORD

  /** `size_t` arithmetic: the result modulo 2^64. */
  function Wrap(x: int): Size
  {
    x % WORD
  }

  lemma WrapSmall(x: int)
    requires 0 <= x < WORD
    ensures Wrap(x) == x
  {
  }

  function Pow2(e: nat): (p: nat)
    ensures p >= 1
  {
    if e == 0 then 1 else 2 * Pow2(e - 1)
  }

  /** The bitwise `&` of two naturals. */
  function And(a: nat, b: nat): (r: nat)
    ensures r <= a && r <= b
  {
    if a == 0 || b == 0 then 0
    else 2 * And(a / 2, b / 2) + (if a % 2 == 1 && b % 2 == 1 then 1 else 0)
  }

  lemma {:induction false} Pow2Le(e: nat, n: nat)
    requires e <= n
    ensures Pow2(e) <= Pow2(n)
    decreases n
  {
    if e < n {
      Pow2Le(e, n - 1);
    }
  }

  /** The page size divides 2^64. */
  lemma {:induction false} Pow2Divides(e: nat, n: nat)
    requires e <= n
    ensures Pow2(n) == Pow2(e) * Pow2(n - e)
    decreases n
  {
    if e < n {
      Pow2Divides(e, n - 1);
    }
  }

  /** 2^64 is a power of two: the number of bits, named so that its powers are
      not unfolded wherever the width is used. */
  lemma WordBits() returns (n: nat)
    ensures n == 64 && Pow2(n) == WORD
  {
    assert Pow2(4) == 16;
    Pow2Divides(4, 8);
    assert Pow2(8) == 0x100;
    Pow2Divides(8, 16);
    assert Pow2(16) == 0x1_0000;
    Pow2Divides(16, 32);
    assert Pow2(32) == 0x1_0000_0000;
    Pow2Divides(32, 64);
    n := 64;
  }

  /** A page is smaller than the address space. */
  lemma PageBelowWord(shift: nat)
    requires shift < 64
    ensures Pow2(shift) < WORD
  {
    var n := WordBits();
    Pow2Le(shift, n - 1);
  }

  /** `x / d` and `x % d` are the only quotient and remainder. */
  lemma DivModUnique(x: nat, d: nat, q: nat, r: nat)
    requires d > 0 && r < d && x == d * q + r
    ensures x / d == q && x % d == r
  {
    var q0: int, r0: int := x / d, x % d;
    assert d * (q - q0) == r0 - r;
    SmallMultiple(d, q - q0);
  }

  /** The only multiple of d strictly between -d and d is 0. */
  lemma SmallMultiple(d: nat, k: int)
    requires d > 0 && -(d as int) < d * k < d
    ensures k == 0
  {
  }

  /** The low e bits of x, one bit at a time. */
  function Low(x: nat, e: nat): (r: nat)
    ensures r < Pow2(e)
  {
    if e == 0 then 0 else x % 2 + 2 * Low(x / 2, e - 1)
  }

  /** x without its low e bits, shifted down. */
  function High(x: nat, e: nat): nat
  {
    if e == 0 then x else High(x / 2, e - 1)
  }

  lemma {:induction false} SplitBits(x: nat, e: nat)
    ensures x == Pow2(e) * High(x, e) + Low(x, e)
    decreases e
  {
    if e > 0 {
      SplitBits(x / 2, e - 1);
      ShiftBit(x, Pow2(e - 1), High(x / 2, e - 1), Low(x / 2, e - 1));
    }
  }

  /** One more bit below a split. */
  lemma ShiftBit(x: nat, p: nat, h: nat, l: nat)
    requires x / 2 == p * h + l
    ensures x == (2 * p) * h + (x % 2 + 2 * l)
  {
    assert (2 * p) * h == 2 * (p * h);
  }

  /** The low e bits are the remainder by 2^e. */
  lemma LowIsMod(x: nat, e: nat)
    ensures Low(x, e) == x % Pow2(e) && x / Pow2(e) == High(x, e)
  {
    SplitBits(x, e);
    DivModUnique(x, Pow2(e), High(x, e), Low(x, e));
  }

  /** `&` with n one-bits keeps a number below 2^n whole. */
  lemma {:induction false} AndOnes(x: nat, n: nat)
    requires x < Pow2(n)
    ensures And(x, Pow2(n) - 1) == x
    decreases n
  {
    if x > 0 {
      AndOnes(x / 2, n - 1);
    }
  }

  /** A number below 2^e is all low bits. */
  lemma {:induction false} LowOfSmall(x: nat, e: nat)
    requires x < Pow2(e)
    ensures Low(x, e) == x
    decreases e
  {
    if e > 0 {
      LowOfSmall(x / 2, e - 1);
    }
  }

  /** `&` with an even number shifts down by one bit. */
  lemma AndEven(x: nat, b: nat)
    requires b > 0 && b % 2 == 0
    ensures And(x, b) == 2 * And(x / 2, b / 2)
  {
  }

  lemma Pow2Step(n: nat)
    requires n > 0
    ensures Pow2(n) == 2 * Pow2(n - 1)
  {
  }

  /** Masking `x` with `mask` clears its bits below `e` and keeps the rest. */
  ghost predicate Clears(x: nat, mask: nat, e: nat)
  {
    And(x, mask) == x - Low(x, e)
  }

  /** `&` with the bits from e to n - 1 set clears the low e bits of a number
      below 2^n. */
  lemma {:induction false} ClearLow(x: nat, n: nat, e: nat)
    requires e <= n && x < Pow2(n)
    ensures Pow2(e) <= Pow2(n) && Clears(x, Pow2(n) - Pow2(e), e)
    decreases n, 1
  {
    Pow2Le(e, n);
    if e == 0 {
      AndOnes(x, n);
    } else if e == n {
      LowOfSmall(x, e);
    } else {
      ClearLowStep(x, n, e);
    }
  }

  /** The inductive step of `ClearLow`: the lowest bit is cleared, the rest
      shifted down by one. */
  lemma {:induction false} ClearLowStep(x: nat, n: nat, e: nat)
    requires 0 < e < n && x < Pow2(n)
    ensures Pow2(e) <= Pow2(n) && Clears(x, Pow2(n) - Pow2(e), e)
    decreases n, 0
  {
    Pow2Le(e, n);
    assert x / 2 < Pow2(n - 1) by {
      Pow2Step(n);
    }
    ClearLow(x / 2, n - 1, e - 1);
    ClearLowBit(x, n, e);
  }

  /** One step down: if the mask of the bits from e - 1 to n - 2 clears `x / 2`
      below `e - 1`, the mask of the bits from e to n - 1 clears `x` below `e`. */
  lemma ClearLowBit(x: nat, n: nat, e: nat)
    requires 0 < e < n && Pow2(e - 1) <= Pow2(n - 1) && Clears(x / 2, Pow2(n - 1) - Pow2(e - 1), e - 1)
    ensures Pow2(e) <= Pow2(n) && Clears(x, Pow2(n) - Pow2(e), e)
  {
    var mask, half := Pow2(n) - Pow2(e), Pow2(n - 1) - Pow2(e - 1);
    MaskHalf(n, e);
    assert And(x, mask) == 2 * And(x / 2, half) by {
      AndEven(x, mask);
    }
    LowStep(x, e);
    Recombine(x, And(x, mask), And(x / 2, half), Low(x, e), Low(x / 2, e - 1));
  }

  /** Shifting back up: twice what remains of `x / 2` is what remains of `x`
      once its lowest bit is cleared too. */
  lemma Recombine(x: nat, masked: int, maskedHalf: int, low: int, lowHalf: int)
    requires masked == 2 * maskedHalf && maskedHalf == x / 2 - lowHalf && low == x % 2 + 2 * lowHalf
    ensures masked == x - low
  {
  }

  /** The mask of the bits from e to n - 1 is even, and halved it is the mask
      of the bits from e - 1 to n - 2. */
  lemma MaskHalf(n: nat, e: nat)
    requires 0 < e < n
    ensures Pow2(e) <= Pow2(n - 1) && Pow2(n) == 2 * Pow2(n - 1)
    ensures var mask := Pow2(n) - Pow2(e);
            mask > 0 && mask % 2 == 0 && mask / 2 == Pow2(n - 1) - Pow2(e - 1)
  {
    Pow2Le(e, n - 1);
    Pow2Step(n);
    Pow2Step(e);
    EvenHalf(Pow2(n - 1) - Pow2(e - 1));
  }

  lemma EvenHalf(k: nat)
    ensures (2 * k) % 2 == 0 && (2 * k) / 2 == k
  {
  }

  lemma LowStep(x: nat, e: nat)
    requires e > 0
    ensures Low(x, e) == x % 2 + 2 * Low(x / 2, e - 1)
  {
  }

  /** `x & ~(page_size - 1)` for a `size_t` x: `~(page_size - 1)` as a `size_t`
      is 2^64 - page_size. */
  function AlignDown(x: Size, shift: nat): Size
    requires shift < 64
  {
    PageBelowWord(shift);
    And(x, WORD - Pow2(shift))
  }

  /** Masking rounds down to a multiple of the page size. */
  lemma AlignDownRounds(x: Size, shift: nat)
    requires shift < 64
    ensures AlignDown(x, shift) == x - x % Pow2(shift)
    ensures AlignDown(x, shift) % Pow2(shift) == 0
    ensures AlignDown(x, shift) <= x < AlignDown(x, shift) + Pow2(shift)
  {
    var p, h, l := Pow2(shift), High(x, shift), Low(x, shift);
    assert AlignDown(x, shift) == x - l by {
      var n := WordBits();
      ClearLow(x, n, shift);
    }
    LowIsMod(x, shift);
    SplitBits(x, shift);
    DivModUnique(p * h, p, h, 0);
  }

  /** `(x + page_size - 1) & ~(page_size - 1)` for a `size_t` x. */
  function AlignUp(x: Size, shift: nat): Size
    requires shift < 64
  {
    AlignDown(Wrap(x + Pow2(shift) - 1), shift)
  }

  /** Pushing up and masking rounds up to a multiple of the page size, unless
      the push passes 2^64. */
  lemma AlignUpRounds(x: Size, shift: nat)
    requires shift < 64 && x + Pow2(shift) - 1 < WORD
    ensures AlignUp(x, shift) % Pow2(shift) == 0
    ensures x <= AlignUp(x, shift) < x + Pow2(shift)
  {
    WrapSmall(x + Pow2(shift) - 1);
    AlignDownRounds(x + Pow2(shift) - 1, shift);
  }

  /** A contiguous run of bytes of the mapped model file. */
  datatype Range = Range(offset: Size, length: Size)

  /** The fragment `[startOff, endOff)` widened to whole pages, as
      `prefetch_weights` and `one_thread_prefetch_weights` compute it: the
      start masked down, the end pushed up by page_size - 1 and masked down,
      and the size their `size_t` difference. */
  function PrefetchRange(startOff: Size, endOff: Size, shift: nat): Range
    requires shift < 64
  {
    var alignedStart := AlignDown(startOff, shift);
    var alignedEnd := AlignUp(endOff, shift);
    Range(alignedStart, Wrap(alignedEnd - alignedStart))
  }

  /** Prefetching rounds outward: when pushing the end up does not pass 2^64,
      the range starts on a page at or before the fragment, ends on a page at or
      after it, and reaches less than a page beyond it on either side. */
  lemma PrefetchCovers(startOff: Size, endOff: Size, shift: nat)
    requires shift < 64 && startOff <= endOff && endOff + Pow2(shift) - 1 < WORD
    ensures var r, p := PrefetchRange(startOff, endOff, shift), Pow2(shift);
            && r.offset % p == 0 && (r.offset + r.length) % p == 0
            && r.offset <= startOff < r.offset + p
            && endOff <= r.offset + r.length < endOff + p
  {
    var s: nat, e: nat := AlignDown(startOff, shift), AlignUp(endOff, shift);
    AlignDownRounds(startOff, shift);
    AlignUpRounds(endOff, shift);
    var r := PrefetchRange(startOff, endOff, shift);
    assert r.offset == s && r.length == e - s by {
      assert r == Range(s, Wrap(e - s));
      WrapSmall(e - s);
    }
    assert r.offset + r.length == e;
  }

  /** `num_threads` in `prefetch_weights`. */
  const NUM_THREADS: nat := 1

  /** The mappings `prefetch_weights` asks its threads to make for the fragment
      `[startOff, endOff)`: the widened range cut into `NUM_THREADS` chunks, each
      rounded up to whole pages, the last one ending at the widened end.  A
      failed `pthread_create` is not modelled. */
  method PrefetchWeights(startOff: Size, endOff: Size, shift: nat) returns (requests: seq<Range>)
    requires shift < 64
    ensures requests == [PrefetchRange(startOff, endOff, shift)]
  {
    var pageSize := Pow2(shift);
    var prefetchStartOff: int := AlignDown(startOff, shift);
    var prefetchEndOff: int := AlignUp(endOff, shift);
    var prefetchSize := Wrap(prefetchEndOff - prefetchStartOff);
    var chunkSize := prefetchSize / NUM_THREADS;
    if chunkSize % pageSize != 0 {
      chunkSize := RoundUp(chunkSize, pageSize);
    }
    requests := [];
    for i := 0 to NUM_THREADS
      invariant requests == if i == 0 then [] else [Range(prefetchStartOff, prefetchSize)]
    {
      var threadStartOff: int := Wrap(prefetchStartOff + i * chunkSize);
      assert threadStartOff == prefetchStartOff by {
        assert i == 0 && i * chunkSize == 0;
        WrapSmall(prefetchStartOff);
      }
      var threadEndOff: int := Wrap(threadStartOff + chunkSize);
      if threadEndOff > prefetchEndOff || i == NUM_THREADS - 1 {
        threadEndOff := prefetchEndOff;
      }
      assert threadEndOff == prefetchEndOff;
      requests := requests + [Range(threadStartOff, Wrap(threadEndOff - threadStartOff))];
    }
  }

  // ---------------------------------------------------------------------------
  // Rounding by division, in `de_prefetch_weights`

  /** `x / p * p`: x rounded down to a multiple of p. */
  function RoundDown(x: Size, p: nat): Size
    requires p > 0
  {
    x / p * p
  }

  /** `((x + p - 1) / p) * p` in `size_t`: x rounded up to a multiple of p. */
  function RoundUp(x: Size, p: nat): Size
    requires p > 0
  {
    Wrap(Wrap(x + p - 1) / p * p)
  }

  lemma RoundDownRounds(x: Size, p: nat)
    requires p > 0
    ensures RoundDown(x, p) % p == 0 && RoundDown(x, p) <= x < RoundDown(x, p) + p
  {
    DivModUnique(x / p * p, p, x / p, 0);
  }

  lemma RoundUpRounds(x: Size, p: nat)
    requires p > 0 && x + p - 1 < WORD
    ensures RoundUp(x, p) % p == 0 && x <= RoundUp(x, p) < x + p
  {
    WrapSmall(x + p - 1);
    RoundDownRounds(x + p - 1, p);
    WrapSmall((x + p - 1) / p * p);
  }

  /** Two different multiples of p are at least p apart. */
  lemma MultiplesApart(a: nat, b: nat, p: nat)
    requires p > 0 && a % p == 0 && b % p == 0 && a < b
    ensures a + p <= b
  {
    var i, j := a / p, b / p;
    assert a == p * i && b == p * j;
    MulCancel(p, i, j);
    MulLe(p, i + 1, j);
  }

  lemma MultipleNext(a: nat, p: nat)
    requires p > 0 && a % p == 0
    ensures (a + p) % p == 0
  {
    assert a == p * (a / p);
    DivModUnique(a + p, p, a / p + 1, 0);
  }

  lemma MultipleDiff(a: nat, b: nat, p: nat)
    requires p > 0 && a % p == 0 && b % p == 0 && a <= b
    ensures (b - a) % p == 0
  {
    var i, j := a / p, b / p;
    assert a == p * i && b == p * j;
    MulCancel(p, i, j);
    assert b - a == p * (j - i);
    DivModUnique(b - a, p, j - i, 0);
  }

  /** A multiple of p above the multiple d, less than a page past a point
      that lies in the page starting at d, is the next one. */
  lemma NextMultiple(d: nat, u: nat, p: nat, s: nat, e: nat)
    requires p > 0 && d % p == 0 && u % p == 0 && d < u
    requires u < s + p && s <= e < d + p
    ensures u == d + p
  {
    MultiplesApart(d, u, p);
    if u > d + p {
      MultipleNext(d, p);
      MultiplesApart(d + p, u, p);
    }
  }

  /** The fragment `[freeStartOff, freeEndOff)` shrunk to the whole pages inside
      it, as `de_prefetch_weights` computes it: the start rounded up by division,
      the end rounded down by division, and the length their `size_t` difference. */
  function ReleaseRange(freeStartOff: Size, freeEndOff: Size, shift: nat): Range
    requires shift < 64
  {
    var p := Pow2(shift);
    var alignedStart := RoundUp(freeStartOff, p);
    var alignedEnd := RoundDown(freeEndOff, p);
    Range(alignedStart, Wrap(alignedEnd - alignedStart))
  }

  /** Releasing rounds inward: the range starts on the first page boundary at
      or after the fragment's start and, when that boundary is not past the
      last one at or before the fragment's end, ends on that last boundary. */
  lemma ReleaseInward(freeStartOff: Size, freeEndOff: Size, shift: nat)
    requires shift < 64 && freeStartOff + Pow2(shift) - 1 < WORD
    ensures var r, p := ReleaseRange(freeStartOff, freeEndOff, shift), Pow2(shift);
            && r.offset % p == 0 && freeStartOff <= r.offset < freeStartOff + p
            && (r.offset <= RoundDown(freeEndOff, p) ==>
                  r.offset + r.length == RoundDown(freeEndOff, p) <= freeEndOff)
  {
    var p := Pow2(shift);
    RoundUpRounds(freeStartOff, p);
    RoundDownRounds(freeEndOff, p);
    var u: nat, d: nat := RoundUp(freeStartOff, p), RoundDown(freeEndOff, p);
    if u <= d {
      WrapSmall(d - u);
    }
  }

  /** When no page boundary lies in `[freeStartOff, freeEndOff]` (the fragment
      lies within one page and does not start on its boundary), the start
      rounded up passes the end rounded down, and the `size_t` length wraps
      round to 2^64 - page_size. */
  lemma ReleaseUnderflow(freeStartOff: Size, freeEndOff: Size, shift: nat)
    requires shift < 64 && freeStartOff <= freeEndOff && freeStartOff + Pow2(shift) - 1 < WORD
    requires RoundUp(freeStartOff, Pow2(shift)) > RoundDown(freeEndOff, Pow2(shift))
    ensures ReleaseRange(freeStartOff, freeEndOff, shift).length == WORD - Pow2(shift)
  {
    var p := Pow2(shift);
    var u: nat, d: nat := RoundUp(freeStartOff, p), RoundDown(freeEndOff, p);
    assert ReleaseRange(freeStartOff, freeEndOff, shift).length == Wrap(d - u);
    assert u == d + p by {
      RoundUpRounds(freeStartOff, p);
      RoundDownRounds(freeEndOff, p);
      NextMultiple(d, u, p, freeStartOff, freeEndOff);
    }
    PageBelowWord(shift);
    WrapNegative(p);
  }

  lemma WrapNegative(p: nat)
    requires 0 < p < WORD
    ensures Wrap(-(p as int)) == WORD - p
  {
  }

  /** A 100-byte fragment inside the first 4 KiB page: `de_prefetch_weights`
      asks to page out 2^64 - 4096 bytes from offset 4096. */
  lemma ReleaseSmallFragment()
    ensures ReleaseRange(100, 200, 12) == Range(4096, WORD - 4096)
  {
    assert Pow2(12) == 4096;
  }

  /** `de_prefetch_weights` with the length clamped to zero when the start
      rounded up passes the end rounded down. */
  function ReleaseRangeChecked(freeStartOff: Size, freeEndOff: Size, shift: nat): Range
    requires shift < 64
  {
    var p := Pow2(shift);
    var alignedStart := RoundUp(freeStartOff, p);
    var alignedEnd := RoundDown(freeEndOff, p);
    Range(alignedStart, if alignedStart <= alignedEnd then alignedEnd - alignedStart else 0)
  }

  /** When some page boundary lies in `[freeStartOff, freeEndOff]`, the release
      as written and the clamped release are the same range. */
  lemma ReleaseAgreesWithChecked(freeStartOff: Size, freeEndOff: Size, shift: nat)
    requires shift < 64 && RoundUp(freeStartOff, Pow2(shift)) <= RoundDown(freeEndOff, Pow2(shift))
    ensures ReleaseRange(freeStartOff, freeEndOff, shift) == ReleaseRangeChecked(freeStartOff, freeEndOff, shift)
  {
    var p := Pow2(shift);
    WrapSmall(RoundDown(freeEndOff, p) - RoundUp(freeStartOff, p));
  }

  /** The clamped release stays inside the fragment and is made of whole pages. */
  lemma ReleaseCheckedWithin(freeStartOff: Size, freeEndOff: Size, shift: nat)
    requires shift < 64 && freeStartOff + Pow2(shift) - 1 < WORD
    ensures var r, p := ReleaseRangeChecked(freeStartOff, freeEndOff, shift), Pow2(shift);
            && r.offset % p == 0 && r.length % p == 0 && freeStartOff <= r.offset
            && r.offset + r.length <= if r.length == 0 then r.offset else freeEndOff
  {
    var p := Pow2(shift);
    RoundUpRounds(freeStartOff, p);
    RoundDownRounds(freeEndOff, p);
    var u: nat, d: nat := RoundUp(freeStartOff, p), RoundDown(freeEndOff, p);
    if u <= d {
      MultipleDiff(u, d, p);
    }
    assert ReleaseRangeChecked(freeStartOff, freeEndOff, shift) == Range(u, if u <= d then d - u else 0);
  }

  /** The clamped release covers every whole page inside the fragment. */
  lemma ReleaseCheckedCovers(freeStartOff: Size, freeEndOff: Size, shift: nat, page: nat)
    requires shift < 64 && freeStartOff + Pow2(shift) - 1 < WORD
    requires page % Pow2(shift) == 0 && freeStartOff <= page && page + Pow2(shift) <= freeEndOff
    ensures var r := ReleaseRangeChecked(freeStartOff, freeEndOff, shift);
            r.offset <= page && page + Pow2(shift) <= r.offset + r.length
  {
    var p := Pow2(shift);
    RoundUpRounds(freeStartOff, p);
    RoundDownRounds(freeEndOff, p);
    var u: nat, d: nat := RoundUp(freeStartOff, p), RoundDown(freeEndOff, p);
    if page < u {
      MultiplesApart(page, u, p);
    }
    MultipleNext(page, p);
    if d < page + p {
      MultiplesApart(d, page + p, p);
    }
  }

  /** What is paged out of a fragment was mapped in for it: the clamped release
      lies inside the range the prefetch of the same fragment covers. */
  lemma ReleaseWithinPrefetch(startOff: Size, endOff: Size, shift: nat)
    requires shift < 64 && startOff <= endOff && endOff + Pow2(shift) - 1 < WORD
    ensures var r, m := ReleaseRangeChecked(startOff, endOff, shift), PrefetchRange(startOff, endOff, shift);
            r.length > 0 ==> m.offset <= r.offset && r.offset + r.length <= m.offset + m.length
  {
    PrefetchCovers(startOff, endOff, shift);
    ReleaseCheckedWithin(startOff, endOff, shift);
  }
}

=== FILE: planner.dfy ===
/**
 * The offline (k, w) planner's environment: the cost profile, the number of
 * layers that fit in the memory budget (`layer_max`), the action list and the
 * pipeline timing simulator that scores an action.
 *
 * A `BanditEnv` is filled once by its constructor and only read afterwards,
 * so it is modelled as a value, `Env`.
 */
module Planner {
  import opened Common

  /** A candidate configuration: `k` layers stay resident, `w` is the prefetch window. */
  datatype Action = Action(k: int, w: int)

  datatype Env = Env(
    memoryLimit: real,
    ioSpeed: real,
    layerSizes: seq<real>,
    tCompute: seq<real>,
    tRelease: seq<real>,
    tLoad: seq<real>,
    totalLayers: nat,
    layerMax: nat,
    allActions: seq<Action>)

  /** The penalty `evaluate` returns for an action outside the feasible region (`-1e6`). */
  const Penalty: real := -1000000.0

  /** The shape every environment has once its constructor's length assertions passed. */
  predicate Shaped(env: Env)
  {
    && |env.layerSizes| == env.totalLayers
    && |env.tCompute| == env.totalLayers
    && |env.tRelease| == env.totalLayers
    && |env.tLoad| == env.totalLayers
    && env.layerMax <= env.totalLayers
  }

  /** An environment as `BanditEnv.__init__` builds it. */
  ghost predicate Valid(env: Env)
  {
    && Shaped(env)
    && (env.ioSpeed != 0.0 || env.layerSizes == [])
    && env.tLoad == LoadTimes(env.layerSizes, env.ioSpeed)
    && env.layerMax == FitCount(env.layerSizes, env.memoryLimit)
    && env.allActions == AllActions(env.layerMax)
  }

  /** Costs that are times: nothing in the profile is negative. */
  ghost predicate NonNegativeCosts(env: Env)
  {
    NonNegative(env.tLoad) && NonNegative(env.tCompute) && NonNegative(env.tRelease)
  }

  // ---------------------------------------------------------------------------
  // Load times

  /** Milliseconds to load each layer at `ioSpeed` MB/s: `sz / io_speed * 1000`.
      With no layers nothing is divided, so any speed is accepted. */
  function LoadTimes(layerSizes: seq<real>, ioSpeed: real): (tLoad: seq<real>)
    requires ioSpeed != 0.0 || layerSizes == []
    ensures |tLoad| == |layerSizes|
    ensures forall i :: 0 <= i < |tLoad| ==> tLoad[i] * ioSpeed == layerSizes[i] * 1000.0
  {
    seq(|layerSizes|, i requires 0 <= i < |layerSizes| => layerSizes[i] / ioSpeed * 1000.0)
  }

  /** At a positive speed a load time is non-negative and a larger layer never loads faster. */
  lemma LoadTimesOrdered(layerSizes: seq<real>, ioSpeed: real)
    requires ioSpeed > 0.0 && NonNegative(layerSizes)
    ensures NonNegative(LoadTimes(layerSizes, ioSpeed))
    ensures forall i, j :: 0 <= i < |layerSizes| && 0 <= j < |layerSizes| && layerSizes[i] <= layerSizes[j] ==>
              LoadTimes(layerSizes, ioSpeed)[i] <= LoadTimes(layerSizes, ioSpeed)[j]
  {
    var t := LoadTimes(layerSizes, ioSpeed);
    forall i | 0 <= i < |layerSizes|
      ensures t[i] >= 0.0
    {
      assert t[i] * ioSpeed == layerSizes[i] * 1000.0;
    }
    forall i, j | 0 <= i < |layerSizes| && 0 <= j < |layerSizes| && layerSizes[i] <= layerSizes[j]
      ensures t[i] <= t[j]
    {
      assert t[i] * ioSpeed == layerSizes[i] * 1000.0;
      assert t[j] * ioSpeed == layerSizes[j] * 1000.0;
      assert (t[j] - t[i]) * ioSpeed >= 0.0;
    }
  }

  // ---------------------------------------------------------------------------
  // layer_max: the greedy prefix that fits in the memory budget

  /** Number of leading layers admitted one by one while they fit in `budget`;
      the scan stops at the first layer that does not fit. */
  function FitCount(sizes: seq<real>, budget: real): (n: nat)
    ensures n <= |sizes|
  {
    if sizes == [] || sizes[0] > budget then 0
    else 1 + FitCount(sizes[1..], budget - sizes[0])
  }

  /** The `layer_max` loop of the constructor, with its `mem` accumulator. */
  method ComputeLayerMax(layerSizes: seq<real>, memoryLimit: real) returns (layerMax: nat)
    ensures layerMax == FitCount(layerSizes, memoryLimit)
    ensures layerMax <= |layerSizes|
  {
    layerMax := 0;
    var mem := 0.0;
    for i := 0 to |layerSizes|
      invariant layerMax == i
      invariant FitCount(layerSizes, memoryLimit) == i + FitCount(layerSizes[i..], memoryLimit - mem)
    {
      var sz := layerSizes[i];
      assert layerSizes[i..][1..] == layerSizes[i + 1..];
      if mem + sz <= memoryLimit {
        layerMax := layerMax + 1;
        mem := mem + sz;
      } else {
        break;
      }
    }
  }

  lemma SumCons(s: seq<real>, n: nat)
    requires 1 <= n <= |s|
    ensures Sum(s[..n]) == s[0] + Sum(s[1..][..n - 1])
  {
    assert s[..n] == [s[0]] + s[1..][..n - 1];
    SumAppend([s[0]], s[1..][..n - 1]);
    assert [s[0]][..0] == [];
  }

  /** FitCount is the greedy prefix: every prefix up to it fits, and either every
      layer fits or the next prefix overflows. */
  lemma {:induction false} FitCountIsGreedyPrefix(sizes: seq<real>, budget: real)
    ensures forall n :: 1 <= n <= FitCount(sizes, budget) ==> Sum(sizes[..n]) <= budget
    ensures FitCount(sizes, budget) < |sizes| ==> Sum(sizes[..FitCount(sizes, budget) + 1]) > budget
  {
    var r := FitCount(sizes, budget);
    if sizes == [] {
    } else if sizes[0] > budget {
      SumCons(sizes, 1);
    } else {
      var tail, rest := sizes[1..], budget - sizes[0];
      FitCountIsGreedyPrefix(tail, rest);
      forall n | 1 <= n <= r
        ensures Sum(sizes[..n]) <= budget
      {
        SumCons(sizes, n);
        if n > 1 {
          assert Sum(tail[..n - 1]) <= rest;
        }
      }
      if r < |sizes| {
        SumCons(sizes, r + 1);
      }
    }
  }

  /** With non-negative sizes the greedy prefix is the longest prefix that fits. */
  lemma LayerMaxIsLongestFittingPrefix(sizes: seq<real>, budget: real)
    requires NonNegative(sizes)
    ensures forall n :: FitCount(sizes, budget) < n <= |sizes| ==> Sum(sizes[..n]) > budget
  {
    var r := FitCount(sizes, budget);
    FitCountIsGreedyPrefix(sizes, budget);
    forall n | r < n <= |sizes|
      ensures Sum(sizes[..n]) > budget
    {
      SumPrefixMonotone(sizes, r + 1, n);
    }
  }

  /** Layers after the first overflow are never looked at: appending layers to a
      profile whose scan already stopped leaves `layer_max` unchanged. */
  lemma {:induction false} FitCountStopsAtFirstOverflow(sizes: seq<real>, more: seq<real>, budget: real)
    requires FitCount(sizes, budget) < |sizes|
    ensures FitCount(sizes + more, budget) == FitCount(sizes, budget)
  {
    assert (sizes + more)[0] == sizes[0];
    if sizes[0] <= budget {
      assert (sizes + more)[1..] == sizes[1..] + more;
      FitCountStopsAtFirstOverflow(sizes[1..], more, budget - sizes[0]);
    }
  }

  // ---------------------------------------------------------------------------
  // The action list

  /** The rows `k, k+1, ..., layerMax` of the comprehension `[(k, w) for k ... for w ...]`. */
  function ActionsFrom(k: nat, layerMax: nat): seq<Action>
    decreases layerMax + 1 - k
  {
    if k > layerMax then []
    else seq(layerMax - k, i => Action(k, i + 1)) + ActionsFrom(k + 1, layerMax)
  }

  /** `all_actions`: `k` from 0 to `layerMax`, and for each `k`, `w` from 1 to `layerMax - k`. */
  function AllActions(layerMax: nat): seq<Action>
  {
    ActionsFrom(0, layerMax)
  }

  /** Enumeration order: k-major, then w. */
  predicate ActionBefore(a: Action, b: Action)
  {
    a.k < b.k || (a.k == b.k && a.w < b.w)
  }

  lemma {:induction false} ActionsFromMembership(k: nat, layerMax: nat, a: Action)
    ensures a in ActionsFrom(k, layerMax) <==> k <= a.k && 1 <= a.w && a.k + a.w <= layerMax
    decreases layerMax + 1 - k
  {
    if k <= layerMax {
      var row := seq(layerMax - k, i => Action(k, i + 1));
      ActionsFromMembership(k + 1, layerMax, a);
      if a.k == k && 1 <= a.w && a.k + a.w <= layerMax {
        assert row[a.w - 1] == a;
      }
    }
  }

  /** `all_actions` holds exactly the pairs with `0 <= k`, `1 <= w` and `k + w <= layer_max`. */
  lemma AllActionsMembership(layerMax: nat, a: Action)
    ensures a in AllActions(layerMax) <==> 0 <= a.k && 1 <= a.w && a.k + a.w <= layerMax
  {
    ActionsFromMembership(0, layerMax, a);
  }

  lemma {:induction false} ActionsFromOrdered(k: nat, layerMax: nat)
    ensures forall i, j :: 0 <= i < j < |ActionsFrom(k, layerMax)| ==>
              ActionBefore(ActionsFrom(k, layerMax)[i], ActionsFrom(k, layerMax)[j])
    decreases layerMax + 1 - k
  {
    if k <= layerMax {
      var row := seq(layerMax - k, i => Action(k, i + 1));
      var rest := ActionsFrom(k + 1, layerMax);
      var s := ActionsFrom(k, layerMax);
      assert s == row + rest;
      ActionsFromOrdered(k + 1, layerMax);
      forall i, j | 0 <= i < j < |s|
        ensures ActionBefore(s[i], s[j])
      {
        if j >= |row| {
          if i >= |row| {
            assert s[i] == rest[i - |row|] && s[j] == rest[j - |row|];
          } else {
            ActionsFromMembership(k + 1, layerMax, rest[j - |row|]);
            assert rest[j - |row|] in rest;
          }
        }
      }
    }
  }

  /** The enumeration is strictly increasing in (k, w), so it has no duplicates. */
  lemma AllActionsOrdered(layerMax: nat)
    ensures forall i, j :: 0 <= i < j < |AllActions(layerMax)| ==>
              ActionBefore(AllActions(layerMax)[i], AllActions(layerMax)[j])
    ensures forall i, j :: 0 <= i < j < |AllActions(layerMax)| ==> AllActions(layerMax)[i] != AllActions(layerMax)[j]
  {
    ActionsFromOrdered(0, layerMax);
  }

  /** There are `layerMax * (layerMax + 1) / 2` actions. */
  lemma {:induction false} ActionsFromCount(k: nat, layerMax: nat)
    requires k <= layerMax + 1
    ensures 2 * |ActionsFrom(k, layerMax)| == (layerMax + 1 - k) * (layerMax - k)
    decreases layerMax + 1 - k
  {
    if k <= layerMax {
      ActionsFromCount(k + 1, layerMax);
      var m := layerMax - k;
      assert (m + 1) * m == m * (m - 1) + 2 * m;
    }
  }

  // ---------------------------------------------------------------------------
  // The constructor

  /** `BanditEnv.__init__` once the profile is loaded: the profile's three lists
      must have the same length (the source asserts it) and the speed must be
      non-zero unless there are no layers (the source divides each size by it). */
  method NewEnv(memoryLimit: real, ioSpeed: real, layerSizes: seq<real>, tCompute: seq<real>, tRelease: seq<real>)
    returns (env: Env)
    requires ioSpeed != 0.0 || layerSizes == []
    requires |tCompute| == |layerSizes| && |tRelease| == |layerSizes|
    ensures Valid(env)
    ensures env.memoryLimit == memoryLimit && env.ioSpeed == ioSpeed
    ensures env.layerSizes == layerSizes && env.tCompute == tCompute && env.tRelease == tRelease
  {
    var tLoad := LoadTimes(layerSizes, ioSpeed);
    var layerMax := ComputeLayerMax(layerSizes, memoryLimit);
    env := Env(memoryLimit, ioSpeed, layerSizes, tCompute, tRelease, tLoad, |layerSizes|, layerMax, AllActions(layerMax));
  }

  // ---------------------------------------------------------------------------
  // The pipeline timing simulator

  /** The guard of `evaluate`: `k + w > layer_max or w < 1 or k < 0` is infeasible. */
  predicate Feasible(env: Env, k: int, w: int)
  {
    !(k + w > env.layerMax || w < 1 || k < 0)
  }

  /** `start_time`: the resident layers are computed first, one after another. */
  function StartTime(env: Env, k: nat): real
    requires k <= |env.tCompute|
  {
    Sum(env.tCompute[..k])
  }

  /** `L[j]`: when tail layer `k + j` has finished loading.  Inside the window the
      load follows the previous load; outside it the load must also wait for the
      release of layer `k + j - w`, which starts when that layer's compute ends. */
  function LoadFinish(env: Env, k: nat, w: nat, j: nat): real
    requires Shaped(env) && w >= 1 && k + j < env.totalLayers
    decreases j, 0
  {
    var ready :=
      if j < w then (if j > 0 then LoadFinish(env, k, w, j - 1) else 0.0)
      else Max(LoadFinish(env, k, w, j - 1), ComputeFinish(env, k, w, j - w) + env.tRelease[k + j - w]);
    ready + env.tLoad[k + j]
  }

  /** `C[j]`: when tail layer `k + j` has finished computing; it starts once it is
      loaded and the previous layer (or the resident prefix) has been computed. */
  function ComputeFinish(env: Env, k: nat, w: nat, j: nat): real
    requires Shaped(env) && w >= 1 && k + j < env.totalLayers
    decreases j, 1
  {
    var ready := if j == 0 then StartTime(env, k) else ComputeFinish(env, k, w, j - 1);
    Max(LoadFinish(env, k, w, j), ready) + env.tCompute[k + j]
  }

  /** One step of `L`, as the loop of `evaluate` computes it. */
  lemma LoadFinishStep(env: Env, k: nat, w: nat, j: nat)
    requires Shaped(env) && w >= 1 && k + j < env.totalLayers
    ensures j == 0 ==> LoadFinish(env, k, w, j) == env.tLoad[k]
    ensures 0 < j < w ==> LoadFinish(env, k, w, j) == LoadFinish(env, k, w, j - 1) + env.tLoad[k + j]
    ensures j >= w ==>
              LoadFinish(env, k, w, j) ==
              Max(LoadFinish(env, k, w, j - 1), ComputeFinish(env, k, w, j - w) + env.tRelease[k + j - w]) + env.tLoad[k + j]
  {
  }

  /** One step of `C`, as the loop of `evaluate` computes it. */
  lemma ComputeFinishStep(env: Env, k: nat, w: nat, j: nat)
    requires Shaped(env) && w >= 1 && k + j < env.totalLayers
    ensures j == 0 ==> ComputeFinish(env, k, w, j) == Max(LoadFinish(env, k, w, j), StartTime(env, k)) + env.tCompute[k]
    ensures j > 0 ==> ComputeFinish(env, k, w, j) == Max(LoadFinish(env, k, w, j), ComputeFinish(env, k, w, j - 1)) + env.tCompute[k + j]
  {
  }

  /** For a feasible action the tail `k .. totalLayers-1` is not empty. */
  lemma FeasibleTailNonEmpty(env: Env, k: int, w: int)
    requires Shaped(env) && Feasible(env, k, w)
    ensures 0 <= k < env.totalLayers && 1 <= w <= env.totalLayers - k
  {
  }

  /** Predicted completion time of a feasible action: `C[-1]`. */
  function Completion(env: Env, k: int, w: int): real
    requires Shaped(env) && Feasible(env, k, w)
  {
    FeasibleTailNonEmpty(env, k, w);
    ComputeFinish(env, k, w, env.totalLayers - k - 1)
  }

  /** What `evaluate(k, w)` returns. */
  function Evaluation(env: Env, k: int, w: int): real
    requires Shaped(env)
  {
    if Feasible(env, k, w) then -Completion(env, k, w) else Penalty
  }

  /** `BanditEnv.evaluate`: fills `L` and `C` over the tail layers and returns `-C[-1]`,
      or the penalty for an infeasible action. Every array access is in range. */
  method Evaluate(env: Env, k: int, w: int) returns (reward: real)
    requires Shaped(env)
    ensures !Feasible(env, k, w) ==> reward == Penalty
    ensures Feasible(env, k, w) ==> reward == -ComputeFinish(env, k, w, env.totalLayers - k - 1)
    ensures reward == Evaluation(env, k, w)
  {
    if k + w > env.layerMax || w < 1 || k < 0 {
      return Penalty;
    }
    var d := env.totalLayers - k;
    var startTime := Sum(env.tCompute[..k]);
    var L := new real[d](_ => 0.0);
    var C := new real[d](_ => 0.0);
    for j := 0 to d
      invariant forall i {:trigger L[i]} :: 0 <= i < j ==> L[i] == LoadFinish(env, k, w, i)
      invariant forall i {:trigger C[i]} :: 0 <= i < j ==> C[i] == ComputeFinish(env, k, w, i)
    {
      var idx := k + j;
      LoadFinishStep(env, k, w, j);
      ComputeFinishStep(env, k, w, j);
      var loaded;
      if j < w {
        loaded := (if j > 0 then L[j - 1] else 0.0) + env.tLoad[idx];
      } else {
        var releaseDone := C[j - w] + env.tRelease[idx - w];
        loaded := Max(L[j - 1], releaseDone) + env.tLoad[idx];
      }
      var computeReady := if j == 0 then startTime else C[j - 1];
      var computed := Max(loaded, computeReady) + env.tCompute[idx];
      L[j], C[j] := loaded, computed;
    }
    reward := -C[d - 1];
  }

  // ---------------------------------------------------------------------------
  // Properties of the timing recurrence

  /** One step of the recurrence with non-negative costs: loads and computes finish
      in tail order, and a layer's compute ends after its own load plus its compute. */
  lemma StepBounds(env: Env, k: nat, w: nat, j: nat)
    requires Shaped(env) && NonNegativeCosts(env) && w >= 1 && k + j < env.totalLayers
    ensures ComputeFinish(env, k, w, j) >= LoadFinish(env, k, w, j) + env.tCompute[k + j]
    ensures j > 0 ==> LoadFinish(env, k, w, j) >= LoadFinish(env, k, w, j - 1) + env.tLoad[k + j]
    ensures j > 0 ==> ComputeFinish(env, k, w, j) >= ComputeFinish(env, k, w, j - 1) + env.tCompute[k + j]
    ensures j == 0 ==> ComputeFinish(env, k, w, j) >= StartTime(env, k) + env.tCompute[k]
  {
    assert env.tLoad[k + j] >= 0.0 && env.tCompute[k + j] >= 0.0;
  }

  /** `C` is nondecreasing along the tail. */
  lemma {:induction false} ComputeFinishMonotone(env: Env, k: nat, w: nat, i: nat, j: nat)
    requires Shaped(env) && NonNegativeCosts(env) && w >= 1 && i <= j && k + j < env.totalLayers
    ensures ComputeFinish(env, k, w, i) <= ComputeFinish(env, k, w, j)
    decreases j - i
  {
    if i < j {
      ComputeFinishMonotone(env, k, w, i, j - 1);
      StepBounds(env, k, w, j);
    }
  }

  /** `L` is nondecreasing along the tail. */
  lemma {:induction false} LoadFinishMonotone(env: Env, k: nat, w: nat, i: nat, j: nat)
    requires Shaped(env) && NonNegativeCosts(env) && w >= 1 && i <= j && k + j < env.totalLayers
    ensures LoadFinish(env, k, w, i) <= LoadFinish(env, k, w, j)
    decreases j - i
  {
    if i < j {
      LoadFinishMonotone(env, k, w, i, j - 1);
      StepBounds(env, k, w, j);
    }
  }

  /** The compute of tail layer `k + j` ends no earlier than the resident prefix's
      compute plus every tail compute up to it. */
  lemma {:induction false} ComputeFinishLowerBound(env: Env, k: nat, w: nat, j: nat)
    requires Shaped(env) && NonNegativeCosts(env) && w >= 1 && k + j < env.totalLayers
    ensures ComputeFinish(env, k, w, j) >= StartTime(env, k) + Sum(env.tCompute[k..k + j + 1])
  {
    StepBounds(env, k, w, j);
    SumSliceStep(env.tCompute, k, k + j);
    if j == 0 {
      assert env.tCompute[k..k] == [];
    } else {
      ComputeFinishLowerBound(env, k, w, j - 1);
    }
  }

  /** Tail layer `k + j` finishes loading no earlier than all tail loads up to it. */
  lemma {:induction false} LoadFinishLowerBound(env: Env, k: nat, w: nat, j: nat)
    requires Shaped(env) && NonNegativeCosts(env) && w >= 1 && k + j < env.totalLayers
    ensures LoadFinish(env, k, w, j) >= Sum(env.tLoad[k..k + j + 1])
  {
    StepBounds(env, k, w, j);
    SumSliceStep(env.tLoad, k, k + j);
    if j == 0 {
      assert env.tLoad[k..k] == [];
    } else {
      LoadFinishLowerBound(env, k, w, j - 1);
    }
  }

  /** The predicted completion time of a feasible action is at least the total compute
      time of all layers, and at least the load time of all non-resident layers. */
  lemma CompletionLowerBound(env: Env, k: int, w: int)
    requires Shaped(env) && NonNegativeCosts(env) && Feasible(env, k, w)
    ensures Completion(env, k, w) >= Sum(env.tCompute)
    ensures Completion(env, k, w) >= Sum(env.tLoad[k..])
    ensures Evaluation(env, k, w) <= -Sum(env.tCompute)
  {
    var n := env.totalLayers;
    var last := n - k - 1;
    assert Completion(env, k, w) == ComputeFinish(env, k, w, last);
    assert Completion(env, k, w) >= Sum(env.tCompute) by {
      ComputeFinishLowerBound(env, k, w, last);
      assert env.tCompute[..k] + env.tCompute[k..n] == env.tCompute;
      SumAppend(env.tCompute[..k], env.tCompute[k..n]);
    }
    assert Completion(env, k, w) >= Sum(env.tLoad[k..]) by {
      LoadFinishLowerBound(env, k, w, last);
      StepBounds(env, k, w, last);
      assert env.tLoad[k..k + last + 1] == env.tLoad[k..];
    }
  }

  /** A wider prefetch window never makes a tail layer load or compute later. */
  lemma {:induction false} WiderWindowNoSlower(env: Env, k: nat, w: nat, w': nat, j: nat)
    requires Shaped(env) && NonNegativeCosts(env)
    requires 1 <= w <= w' && k + j < env.totalLayers
    ensures LoadFinish(env, k, w', j) <= LoadFinish(env, k, w, j)
    ensures ComputeFinish(env, k, w', j) <= ComputeFinish(env, k, w, j)
  {
    if j > 0 {
      WiderWindowNoSlower(env, k, w, w', j - 1);
    }
    if j >= w' {
      WiderWindowNoSlower(env, k, w, w', j - w');
    }
    WiderLoad(env, k, w, w', j);
    WiderCompute(env, k, w, w', j);
  }

  /** The load step of `WiderWindowNoSlower`.  Beyond the window `w'` the load
      waits for the release of tail layer `j - w'`; with window `w` the load of
      tail layer `j - w' + w`, which comes no later, already waited for it. */
  lemma WiderLoad(env: Env, k: nat, w: nat, w': nat, j: nat)
    requires Shaped(env) && NonNegativeCosts(env)
    requires 1 <= w <= w' && k + j < env.totalLayers
    requires j > 0 ==> LoadFinish(env, k, w', j - 1) <= LoadFinish(env, k, w, j - 1)
    requires j >= w' ==> ComputeFinish(env, k, w', j - w') <= ComputeFinish(env, k, w, j - w')
    ensures LoadFinish(env, k, w', j) <= LoadFinish(env, k, w, j)
  {
    LoadFinishStep(env, k, w', j);
    StepBounds(env, k, w, j);
    if j >= w' {
      ReleaseAwaited(env, k, w, w', j);
    } else if j == 0 {
      LoadFinishStep(env, k, w, j);
    }
  }

  /** With window `w`, the load of tail layer `j` starts no earlier than the end
      of the release of tail layer `j - w'`, for any wider window `w'`. */
  lemma ReleaseAwaited(env: Env, k: nat, w: nat, w': nat, j: nat)
    requires Shaped(env) && NonNegativeCosts(env)
    requires 1 <= w <= w' <= j && k + j < env.totalLayers
    ensures LoadFinish(env, k, w, j) >= ComputeFinish(env, k, w, j - w') + env.tRelease[k + j - w'] + env.tLoad[k + j]
  {
    var m := j - w' + w;
    LoadFinishStep(env, k, w, m);
    assert LoadFinish(env, k, w, m) >= ComputeFinish(env, k, w, j - w') + env.tRelease[k + j - w'] by {
      assert m - w == j - w' && env.tLoad[k + m] >= 0.0;
    }
    if m < j {
      LoadFinishMonotone(env, k, w, m, j - 1);
      StepBounds(env, k, w, j);
    }
  }

  /** The compute step of `WiderWindowNoSlower`. */
  lemma WiderCompute(env: Env, k: nat, w: nat, w': nat, j: nat)
    requires Shaped(env) && 1 <= w <= w' && k + j < env.totalLayers
    requires LoadFinish(env, k, w', j) <= LoadFinish(env, k, w, j)
    requires j > 0 ==> ComputeFinish(env, k, w', j - 1) <= ComputeFinish(env, k, w, j - 1)
    ensures ComputeFinish(env, k, w', j) <= ComputeFinish(env, k, w, j)
  {
    ComputeFinishStep(env, k, w', j);
    ComputeFinishStep(env, k, w, j);
  }

  /** Hence, for a fixed `k`, widening a feasible window never lowers the reward. */
  lemma WiderWindowNoWorse(env: Env, k: int, w: int, w': int)
    requires Shaped(env) && NonNegativeCosts(env)
    requires Feasible(env, k, w) && Feasible(env, k, w') && w <= w'
    ensures Evaluation(env, k, w) <= Evaluation(env, k, w')
  {
    WiderWindowNoSlower(env, k, w, w', env.totalLayers - k - 1);
  }
}

=== FILE: prefetch_state.dfy ===
/** The prefetcher's per-graph state: `prefetch_ctx` as `create_prefetch_ctx`
    builds it from the weight placement table, and the resident/dynamic split
    `prefetch_resident_layer_weights` makes once the planner's k is known.  The
    statuses are values kept in a map; the operating system calls are the
    `Range`s they would be given. */
module PrefetchState {
  import opened PageAlign
  import LayerOrder

  /** `(start_off, end_off)`: one tensor's bytes in the model file. */
  datatype Fragment = Fragment(startOff: Size, endOff: Size)

  /** `(start_off, end_off, layer_index)`: an entry of a layer's list in
      `layer_weights_off`. */
  datatype Placement = Placement(startOff: Size, endOff: Size, layerIndex: int)

  /** `layer_prefetch_status`. */
  datatype LayerStatus = LayerStatus(layerIndex: int, isDynamic: bool, prefetched: bool, fragments: seq<Fragment>)

  /** A fresh status built from a layer's placements: not dynamic, not
      prefetched, the placements' fragments in order, and the index of the last
      placement (each one overwrites `layer_index`), or 0 when there is none. */
  ghost predicate Describes(status: LayerStatus, placements: seq<Placement>)
  {
    && status.layerIndex == (if placements == [] then 0 else placements[|placements| - 1].layerIndex)
    && !status.isDynamic && !status.prefetched
    && |status.fragments| == |placements|
    && forall i :: 0 <= i < |placements| ==>
         status.fragments[i] == Fragment(placements[i].startOff, placements[i].endOff)
  }

  /** The body of the loop over one layer in `create_prefetch_ctx`:
      `new layer_prefetch_status()` starts with `layer_index` 0. */
  method NewStatus(placements: seq<Placement>) returns (status: LayerStatus)
    ensures Describes(status, placements)
  {
    status := LayerStatus(0, false, false, []);
    for i := 0 to |placements|
      invariant status.layerIndex == (if i == 0 then 0 else placements[i - 1].layerIndex)
      invariant !status.isDynamic && !status.prefetched && |status.fragments| == i
      invariant forall j :: 0 <= j < i ==>
                  status.fragments[j] == Fragment(placements[j].startOff, placements[j].endOff)
    {
      var placement := placements[i];
      status := status.(layerIndex := placement.layerIndex,
                        fragments := status.fragments + [Fragment(placement.startOff, placement.endOff)]);
    }
  }

  /** The layer's weights are mapped in by `prefetch_resident_layer_weights`: it
      is resident (index below k), this is the first call, and it is not the
      input layer (index -1) while `prefetch_input` is off. */
  predicate LoadsNow(status: LayerStatus, k: int, prefetchInput: bool, prefetchDone: bool)
  {
    status.layerIndex < k && !prefetchDone && !(status.layerIndex == -1 && !prefetchInput)
  }

  /** A status after `prefetch_resident_layer_weights`. */
  function Classified(status: LayerStatus, k: int, prefetchInput: bool, prefetchDone: bool): LayerStatus
  {
    status.(isDynamic := status.layerIndex >= k,
            prefetched := status.prefetched || LoadsNow(status, k, prefetchInput, prefetchDone))
  }

  /** The mappings made for a layer's fragments, in order. */
  function FragmentRequests(fragments: seq<Fragment>, shift: nat): (r: seq<Range>)
    requires shift < 64
    ensures |r| == |fragments|
    ensures forall i :: 0 <= i < |fragments| ==>
              r[i] == PrefetchRange(fragments[i].startOff, fragments[i].endOff, shift)
  {
    if fragments == [] then []
    else
      var last := fragments[|fragments| - 1];
      FragmentRequests(fragments[..|fragments| - 1], shift) + [PrefetchRange(last.startOff, last.endOff, shift)]
  }

  /** The mappings `prefetch_resident_layer_weights` makes, layer by layer in
      the map's order. */
  function ResidentRequests(names: seq<string>, status: map<string, LayerStatus>, k: int,
                            prefetchInput: bool, prefetchDone: bool, shift: nat): seq<Range>
    requires shift < 64 && forall n :: n in names ==> n in status
  {
    if names == [] then []
    else
      var name := names[|names| - 1];
      ResidentRequests(names[..|names| - 1], status, k, prefetchInput, prefetchDone, shift)
        + (if LoadsNow(status[name], k, prefetchInput, prefetchDone)
           then FragmentRequests(status[name].fragments, shift) else [])
  }

  lemma ResidentRequestsStep(names: seq<string>, status: map<string, LayerStatus>, k: int,
                             prefetchInput: bool, prefetchDone: bool, shift: nat, i: nat)
    requires shift < 64 && i < |names| && forall n :: n in names ==> n in status
    ensures ResidentRequests(names[..i + 1], status, k, prefetchInput, prefetchDone, shift)
         == ResidentRequests(names[..i], status, k, prefetchInput, prefetchDone, shift)
            + (if LoadsNow(status[names[i]], k, prefetchInput, prefetchDone)
               then FragmentRequests(status[names[i]].fragments, shift) else [])
  {
    assert names[..i + 1][..i] == names[..i];
  }

  /** Only the first call maps anything in: once `prefetch_done` is set, a call
      makes no mapping. */
  lemma {:induction false} DoneRequestsNothing(names: seq<string>, status: map<string, LayerStatus>,
                                               k: int, prefetchInput: bool, shift: nat)
    requires shift < 64 && forall n :: n in names ==> n in status
    ensures ResidentRequests(names, status, k, prefetchInput, true, shift) == []
  {
    if names != [] {
      DoneRequestsNothing(names[..|names| - 1], status, k, prefetchInput, shift);
    }
  }

  /** Every mapping made belongs to a fragment of a resident layer other than a
      skipped input layer; dynamic layers are left to the prefetch thread. */
  lemma {:induction false} RequestsFromResident(names: seq<string>, status: map<string, LayerStatus>, k: int,
                                                prefetchInput: bool, prefetchDone: bool, shift: nat, j: nat)
    requires shift < 64 && forall n :: n in names ==> n in status
    requires j < |ResidentRequests(names, status, k, prefetchInput, prefetchDone, shift)|
    ensures exists n, f :: n in names && 0 <= f < |status[n].fragments|
              && LoadsNow(status[n], k, prefetchInput, prefetchDone)
              && ResidentRequests(names, status, k, prefetchInput, prefetchDone, shift)[j]
                 == PrefetchRange(status[n].fragments[f].startOff, status[n].fragments[f].endOff, shift)
  {
    var init := names[..|names| - 1];
    var name := names[|names| - 1];
    var earlier := ResidentRequests(init, status, k, prefetchInput, prefetchDone, shift);
    if j < |earlier| {
      RequestsFromResident(init, status, k, prefetchInput, prefetchDone, shift, j);
      var n, f :| n in init && 0 <= f < |status[n].fragments|
                  && LoadsNow(status[n], k, prefetchInput, prefetchDone)
                  && earlier[j] == PrefetchRange(status[n].fragments[f].startOff, status[n].fragments[f].endOff, shift);
      assert n in names;
    } else {
      var f := j - |earlier|;
      assert name in names;
      assert ResidentRequests(names, status, k, prefetchInput, prefetchDone, shift)[j]
          == FragmentRequests(status[name].fragments, shift)[f];
    }
  }

  /** Every fragment of a layer that is mapped in gets its mapping. */
  lemma {:induction false} ResidentRequested(names: seq<string>, status: map<string, LayerStatus>, k: int,
                                             prefetchInput: bool, prefetchDone: bool, shift: nat, i: nat, f: nat)
    requires shift < 64 && forall n :: n in names ==> n in status
    requires i < |names| && f < |status[names[i]].fragments|
    requires LoadsNow(status[names[i]], k, prefetchInput, prefetchDone)
    ensures PrefetchRange(status[names[i]].fragments[f].startOff, status[names[i]].fragments[f].endOff, shift)
              in ResidentRequests(names, status, k, prefetchInput, prefetchDone, shift)
  {
    var init := names[..|names| - 1];
    if i < |names| - 1 {
      assert init[i] == names[i];
      ResidentRequested(init, status, k, prefetchInput, prefetchDone, shift, i, f);
    } else {
      assert FragmentRequests(status[names[i]].fragments, shift)[f]
          == PrefetchRange(status[names[i]].fragments[f].startOff, status[names[i]].fragments[f].endOff, shift);
    }
  }

  /** The loop body of `prefetch_resident_layer_weights` for one layer: the
      updated status and the mappings made for it, one per fragment, in order. */
  method ClassifyLayer(status: LayerStatus, k: int, prefetchInput: bool, prefetchDone: bool, shift: nat)
    returns (updated: LayerStatus, requests: seq<Range>)
    requires shift < 64
    ensures updated == Classified(status, k, prefetchInput, prefetchDone)
    ensures requests == if LoadsNow(status, k, prefetchInput, prefetchDone)
                        then FragmentRequests(status.fragments, shift) else []
  {
    updated := status;
    requests := [];
    if updated.layerIndex >= k {
      updated := updated.(isDynamic := true);
      return;
    }
    updated := updated.(isDynamic := false);
    if !prefetchDone && !(updated.layerIndex == -1 && !prefetchInput) {
      for f := 0 to |updated.fragments|
        invariant requests == FragmentRequests(status.fragments[..f], shift)
      {
        var fragment := updated.fragments[f];
        assert status.fragments[..f + 1][..f] == status.fragments[..f];
        requests := requests + [PrefetchRange(fragment.startOff, fragment.endOff, shift)];
      }
      assert status.fragments[..|status.fragments|] == status.fragments;
      updated := updated.(prefetched := true);
    }
  }

  /** A map whose keys are exactly the listed names, updated at every name, is
      updated at every key. */
  lemma AllClassified(names: seq<string>, status0: map<string, LayerStatus>, statuses: map<string, LayerStatus>,
                      k: int, prefetchInput: bool, prefetchDone: bool)
    requires (forall n :: n in status0 <==> n in names) && statuses.Keys == status0.Keys
    requires forall j :: 0 <= j < |names| ==>
               statuses[names[j]] == Classified(status0[names[j]], k, prefetchInput, prefetchDone)
    ensures forall n :: n in statuses ==> statuses[n] == Classified(status0[n], k, prefetchInput, prefetchDone)
  {
    forall n | n in statuses
      ensures statuses[n] == Classified(status0[n], k, prefetchInput, prefetchDone)
    {
      var j :| 0 <= j < |names| && names[j] == n;
    }
  }

  /** Part way through the loop over the layers: the first `i` statuses are
      classified and the rest untouched. */
  ghost predicate ClassifiedUpTo(names: seq<string>, status0: map<string, LayerStatus>,
                                 statuses: map<string, LayerStatus>, i: nat,
                                 k: int, prefetchInput: bool, prefetchDone: bool)
    requires i <= |names|
  {
    && statuses.Keys == status0.Keys
    && (forall j :: 0 <= j < |names| ==> names[j] in status0)
    && (forall j :: 0 <= j < i ==>
          statuses[names[j]] == Classified(status0[names[j]], k, prefetchInput, prefetchDone))
    && (forall j :: i <= j < |names| ==> statuses[names[j]] == status0[names[j]])
  }

  lemma ClassifyNext(names: seq<string>, status0: map<string, LayerStatus>,
                     statuses: map<string, LayerStatus>, i: nat,
                     k: int, prefetchInput: bool, prefetchDone: bool)
    requires i < |names| && ClassifiedUpTo(names, status0, statuses, i, k, prefetchInput, prefetchDone)
    requires forall p, q :: 0 <= p < q < |names| ==> names[p] != names[q]
    ensures names[i] in statuses && statuses[names[i]] == status0[names[i]]
    ensures ClassifiedUpTo(names, status0,
                           statuses[names[i] := Classified(statuses[names[i]], k, prefetchInput, prefetchDone)],
                           i + 1, k, prefetchInput, prefetchDone)
  {
  }

  /** The loop of `prefetch_resident_layer_weights` over the layers, in the
      map's order: every status classified, and the mappings made. */
  method ClassifyAll(names: seq<string>, status0: map<string, LayerStatus>, k: int,
                     prefetchInput: bool, prefetchDone: bool, shift: nat)
    returns (statuses: map<string, LayerStatus>, requests: seq<Range>)
    requires shift < 64 && forall n :: n in status0 <==> n in names
    requires forall i, j :: 0 <= i < j < |names| ==> names[i] != names[j]
    ensures statuses.Keys == status0.Keys
    ensures forall n :: n in statuses ==> statuses[n] == Classified(status0[n], k, prefetchInput, prefetchDone)
    ensures requests == ResidentRequests(names, status0, k, prefetchInput, prefetchDone, shift)
  {
    statuses := status0;
    requests := [];
    for i := 0 to |names|
      invariant ClassifiedUpTo(names, status0, statuses, i, k, prefetchInput, prefetchDone)
      invariant requests == ResidentRequests(names[..i], status0, k, prefetchInput, prefetchDone, shift)
    {
      var name := names[i];
      var updated, made := ClassifyLayer(statuses[name], k, prefetchInput, prefetchDone, shift);
      ResidentRequestsStep(names, status0, k, prefetchInput, prefetchDone, shift, i);
      ClassifyNext(names, status0, statuses, i, k, prefetchInput, prefetchDone);
      requests := requests + made;
      statuses := statuses[name := updated];
    }
    assert names[..|names|] == names;
    AllClassified(names, status0, statuses, k, prefetchInput, prefetchDone);
  }

  /** `de_prefetch_weights`: one page-out request per fragment of the layer, in
      order, for the fragment's start rounded up and end rounded down to pages,
      with their `size_t` difference as the length.  Where some page boundary
      lies in the fragment that is the clamped release; where none does, the
      length wraps round to 2^64 - page_size. */
  method DePrefetchWeights(status: LayerStatus, shift: nat) returns (releases: seq<Range>)
    requires shift < 64
    ensures |releases| == |status.fragments|
    ensures forall i :: 0 <= i < |releases| ==>
              releases[i] == ReleaseRange(status.fragments[i].startOff, status.fragments[i].endOff, shift)
    ensures forall i :: 0 <= i < |releases| && ReachesBoundary(status.fragments[i], shift) ==>
              releases[i] == ReleaseRangeChecked(status.fragments[i].startOff, status.fragments[i].endOff, shift)
    ensures forall i :: 0 <= i < |releases| && WrapsRound(status.fragments[i], shift) ==>
              releases[i].length == WORD - Pow2(shift)
  {
    releases := [];
    for i := 0 to |status.fragments|
      invariant |releases| == i
      invariant forall j :: 0 <= j < i ==>
                  releases[j] == ReleaseRange(status.fragments[j].startOff, status.fragments[j].endOff, shift)
    {
      var fragment := status.fragments[i];
      var freeStartOff, freeEndOff := fragment.startOff, fragment.endOff;
      var pageSize := Pow2(shift);
      var alignedStart := RoundUp(freeStartOff, pageSize);
      var alignedEnd := RoundDown(freeEndOff, pageSize);
      var length := Wrap(alignedEnd as int - alignedStart as int);
      releases := releases + [Range(alignedStart, length)];
    }
    forall i | 0 <= i < |releases| && ReachesBoundary(status.fragments[i], shift)
      ensures releases[i] == ReleaseRangeChecked(status.fragments[i].startOff, status.fragments[i].endOff, shift)
    {
      ReleaseAgreesWithChecked(status.fragments[i].startOff, status.fragments[i].endOff, shift);
    }
    forall i | 0 <= i < |releases| && WrapsRound(status.fragments[i], shift)
      ensures releases[i].length == WORD - Pow2(shift)
    {
      ReleaseUnderflow(status.fragments[i].startOff, status.fragments[i].endOff, shift);
    }
  }

  /** Some page boundary lies in `[startOff, endOff]`, so the start rounded up
      does not pass the end rounded down. */
  predicate ReachesBoundary(fragment: Fragment, shift: nat)
    requires shift < 64
  {
    RoundUp(fragment.startOff, Pow2(shift)) <= RoundDown(fragment.endOff, Pow2(shift))
  }

  /** No page boundary lies in `[startOff, endOff]`: the fragment lies within one
      page and does not start on its boundary.  Rounding its start up does not
      pass 2^64. */
  predicate WrapsRound(fragment: Fragment, shift: nat)
    requires shift < 64
  {
    && fragment.startOff <= fragment.endOff && fragment.startOff + Pow2(shift) - 1 < WORD
    && !ReachesBoundary(fragment, shift)
  }

  /** `std::string`'s `<`: the first differing character decides, and a proper
      prefix goes first.  `std::map` visits its keys in this order. */
  predicate KeyLess(a: string, b: string)
  {
    if a == [] then b != []
    else if b == [] then false
    else if a[0] != b[0] then a[0] < b[0]
    else KeyLess(a[1..], b[1..])
  }

  /** `KeyLess` is a strict order: irreflexive, and transitive, so a map's keys
      are listed once each. */
  lemma {:induction false} KeyLessStrict(a: string, b: string, c: string)
    ensures !KeyLess(a, a)
    ensures KeyLess(a, b) && KeyLess(b, c) ==> KeyLess(a, c)
    decreases |a|
  {
    if a != [] {
      KeyLessStrict(a[1..], if b == [] then b else b[1..], if c == [] then c else c[1..]);
    }
  }

  /** A placement table's entries, listed in the order `std::map` visits them. */
  ghost predicate KeysAscending(entries: seq<(string, seq<Placement>)>)
  {
    forall i, j :: 0 <= i < j < |entries| ==> KeyLess(entries[i].0, entries[j].0)
  }

  /** `prefetch_ctx`, without its reference to the compute graph.  `prefetch_done`, a static
      local of `prefetch_resident_layer_weights`, is kept here. */
  class PrefetchContext {
    var totalLayers: int
    /** The keys of `layer_status` in the map's iteration order. */
    var layerNames: seq<string>
    var layerStatus: map<string, LayerStatus>
    var sortedLayers: seq<string>
    var prefetchDone: bool

    ghost predicate Valid()
      reads this
    {
      && totalLayers == |layerNames|
      && (forall i, j :: 0 <= i < j < |layerNames| ==> layerNames[i] != layerNames[j])
      && (forall n :: n in layerStatus <==> n in layerNames)
      && LayerOrder.SortedByRank(sortedLayers)
      && multiset(sortedLayers) == multiset(layerNames)
    }

    /** `create_prefetch_ctx`: one status per layer of the placement table,
        given as its entries in the map's order, and the layer names sorted by
        `cmp`. */
    constructor (layerWeightsOff: seq<(string, seq<Placement>)>)
      requires KeysAscending(layerWeightsOff)
      ensures Valid() && !prefetchDone
      ensures |layerNames| == |layerWeightsOff|
      ensures forall i :: 0 <= i < |layerWeightsOff| ==>
                layerNames[i] == layerWeightsOff[i].0
                && Describes(layerStatus[layerNames[i]], layerWeightsOff[i].1)
    {
      forall i, j | 0 <= i < j < |layerWeightsOff|
        ensures layerWeightsOff[i].0 != layerWeightsOff[j].0
      {
        KeyLessStrict(layerWeightsOff[i].0, layerWeightsOff[j].0, layerWeightsOff[j].0);
      }
      var names: seq<string> := [];
      var statuses: map<string, LayerStatus> := map[];
      for i := 0 to |layerWeightsOff|
        invariant |names| == i
        invariant forall j :: 0 <= j < i ==> names[j] == layerWeightsOff[j].0
        invariant forall n :: n in statuses <==> n in names
        invariant forall j :: 0 <= j < i ==> Describes(statuses[names[j]], layerWeightsOff[j].1)
      {
        var entry := layerWeightsOff[i];
        var status := NewStatus(entry.1);
        statuses := statuses[entry.0 := status];
        names := names + [entry.0];
      }
      var sorted := new string[|names|](j requires 0 <= j < |names| => names[j]);
      assert sorted[..] == names;
      LayerOrder.SortLayers(sorted);
      totalLayers := |names|;
      layerNames := names;
      layerStatus := statuses;
      sortedLayers := sorted[..];
      prefetchDone := false;
    }

    /** `prefetch_resident_layer_weights` with the planner's k: every layer is
        marked dynamic exactly when its index is at least k; on the first call
        the resident layers' fragments are mapped in, widened to whole pages,
        and marked prefetched.  The mappings made are returned. */
    method PrefetchResidentLayerWeights(k: int, prefetchInput: bool, shift: nat) returns (requests: seq<Range>)
      requires Valid() && shift < 64
      modifies this
      ensures Valid() && prefetchDone
      ensures totalLayers == old(totalLayers) && layerNames == old(layerNames) && sortedLayers == old(sortedLayers)
      ensures layerStatus.Keys == old(layerStatus).Keys
      ensures forall n :: n in layerStatus ==>
                layerStatus[n] == Classified(old(layerStatus)[n], k, prefetchInput, old(prefetchDone))
      ensures forall n :: n in layerStatus ==> (layerStatus[n].isDynamic <==> layerStatus[n].layerIndex >= k)
      ensures requests == ResidentRequests(layerNames, old(layerStatus), k, prefetchInput, old(prefetchDone), shift)
    {
      var statuses;
      statuses, requests := ClassifyAll(layerNames, layerStatus, k, prefetchInput, prefetchDone, shift);
      layerStatus := statuses;
      prefetchDone := true;
    }
  }
}
